=== FILE: README.md ===
# City Barru backend: a Dafny model of its controllers

This project models the request handlers of the City Barru travel backend.
That backend is a Go service built on gin and gorm, and it covers trips,
preferences, authentication, images, admin user maintenance and the base-URL
helper.

Each handler is a pure function. It takes:

- the database state (`Models.Store`);
- the authenticated caller (`Base.Session`), that is, the `userID` and `role`
  that the auth middleware leaves in the request context;
- the decoded request body (`None` when it does not decode);
- which database or filesystem call fails, if any.

It returns an `Answer`: the JSON reply (status, data or error message) and
the new state.

The state is modelled as follows:

- Tables are maps from primary key to record.
- The join table of user preferences is a sequence, because nothing makes its
  rows unique.
- The two upload directories are a set of `(directory, file name)` pairs.
- A single `nextId` counter stands for gorm's auto-increment keys. It always
  lies above every key in use. A row inserted under a key that the body
  names raises the counter past that key.
- A soft delete (gorm `DeletedAt`) is removal from the live map.
- gorm `Where(..).First(..)` is a scan in key order (`Models.First`).

The handler for updating a trip runs in a transaction. The model gives it a
working copy of the store, which is either published by the commit or
dropped.

Calls whose inner workings are not part of this model arrive as parameters:

- bcrypt hashing and comparison;
- JWT signing;
- the validator's `email` rule;
- upload time stamps and UUIDs;
- the `BASE_URL` environment variable and the request's TLS flag, headers and
  host.

Modules, one per file:

- `Base`: options, statuses, replies, the session and role names.
- `Models`: records of models/*.go, the store, first-match lookup.
- `Trips`: controllers/trip/trip.go handlers.
- `Seed`: the deterministic part of trip seeding in controllers/trip/trip.go.
- `Preferences`: controllers/preference/preference.controller.go.
- `Auth`: controllers/auth/auth.go.
- `Users`: controllers/user/user.go.
- `ImageNames`: the string helpers of controllers/image/image.go, including
  the MIME whitelist, `filepath.Ext`, the extension table, `ParseUint` and
  stored names.
- `Images`: the handlers of controllers/image/image.go. GetImage and
  GetCoverImage are the same code over two directories, so one function
  (`Images.ServeFile`) models both.
- `Urls`: utils/url.go.

## Model

| member | source | states |
|---|---|---|
| Models.First | controllers/auth/auth.go:59 | `Where(p).First()` yields the smallest key whose record satisfies p, and None exactly when no record does |
| Models.Holder | controllers/auth/auth.go:125 | the email lookup yields an account holding that email, and None exactly when no account does |
| Models.FirstEmailIsHolder | controllers/auth/auth.go:125 | with unique emails, looking up an email finds its one holder |
| Models.SaveTarget | controllers/user/user.go:59 | `Save` of a record updates the row its key names when that row is live, and otherwise inserts under that key, or under the next key when the key is zero |
| Trips.Authorize | controllers/trip/trip.go:179-214 | a mutation is allowed iff the trip exists, the caller is a trip owner and owns it; a missing trip is reported first |
| Trips.MissingTripSameForAll | controllers/trip/trip.go:179-186 | a missing trip gives the same 404 and the same store to every caller, body and failure, for both update and delete |
| Trips.GetAll | controllers/trip/trip.go:48-79 | the listed trips are exactly those matching owner equality and the inclusive price bounds, an absent filter imposes nothing, count is the length, and a failing query answers 500 |
| Trips.GetByID | controllers/trip/trip.go:82-98 | found iff the key is live, and then the stored trip; otherwise 404 |
| Trips.Resolve | controllers/trip/trip.go:132-137 | the preferences found are exactly the requested ids that exist, so unknown ids are dropped and not rejected |
| Trips.Create | controllers/trip/trip.go:101-171 | 401 without caller, then 403 without the trip-owner role, then 400 on a failed binding; on success the new trip belongs to the caller, copies the request, carries the existing requested preferences and is stored under a fresh key; every failure leaves the store unchanged |
| Trips.PatchScalars | controllers/trip/trip.go:233-259 | the scalar patch never touches owner, preferences or points |
| Trips.Update | controllers/trip/trip.go:174-308 | guard order and replies (404, 401, 403 insufficient role, 403 not owner, then 400 for a body that does not decode), any failure leaves the store unchanged, and success changes only the one trip and keeps its owner |
| Trips.UpdateSucceedsUnlessIssuedCallFails | controllers/trip/trip.go:174-308 | an update succeeds exactly when it is authorised, its body decodes and no call it issues fails |
| Trips.UpdatePatchSemantics | controllers/trip/trip.go:233-294 | each absent field keeps its value and each present one (even "" or 0) replaces it; a present preference list replaces the set wholesale (empty clears it) and an absent one keeps it; points likewise |
| Trips.UpdateAllOrNothing | controllers/trip/trip.go:226-299 | an authorised update commits iff none of the calls it issues fails, and a failure leaves the trip, its preferences and its points as they were |
| Trips.UpdateSkipsValidation | controllers/trip/trip.go:216-223 | the update path binds no validation tags, so a negative price and a zero duration are stored |
| Trips.Delete | controllers/trip/trip.go:311-368 | the same guard order as update; success removes exactly that trip and echoes its id and name |
| Trips.DeleteThenGet | controllers/trip/trip.go:311-368 | after a delete the trip is not found and every other trip reads as before |
| Trips.CreateThenGet | controllers/trip/trip.go:156-170 | a created trip is then read back under its key |
| Trips.CreateThenMine | controllers/trip/trip.go:393-405 | a created trip appears in its creator's own list |
| Trips.GetMyTrips | controllers/trip/trip.go:371-405 | 401 without caller, 403 without the role; otherwise exactly the caller's trips, with count the length |
| Trips.MyTripsIsOwnerFilter | controllers/trip/trip.go:393-405 | the caller's own list equals the general list filtered on the caller's id |
| Seed.CoverImageFor | controllers/trip/trip.go:642-658 | total lookup: a listed tourism type gets its picture, any other the attraction picture |
| Seed.PreferenceNamesFor | controllers/trip/trip.go:476-486 | a listed tourism type gets its (at least three) preference names, an unlisted one none |
| Seed.Description | controllers/trip/trip.go:584-600 | the description starts with the fixed opening and ends with the fixed closing, and is just the two when the tags have no address, website or phone |
| Seed.Candidate | controllers/trip/trip.go:496-560 | a seeded trip takes the element's name, its `center` when present (else its own coordinates), the type's cover image and preference names |
| Seed.Plan | controllers/trip/trip.go:491-562 | the reference selection: candidates of the named elements in order, every one named and drawn from some element |
| Seed.SelectSeeds | controllers/trip/trip.go:491-500 | the loop yields the reference selection of the first 20 elements, hence at most 20 named trips |
| Seed.WindowIgnoresTail | controllers/trip/trip.go:492-494 | nameless elements still use up the 20-element window, so elements past it never matter |
| Preferences.GetAll | controllers/preference/preference.controller.go:13-27 | every preference with count equal to the length, or 500 on a failing query |
| Preferences.GetByID | controllers/preference/preference.controller.go:30-46 | found iff the key is live, otherwise 404; nothing is written |
| Preferences.Create | controllers/preference/preference.controller.go:48-70 | succeeds iff the body decodes, its name is free, its `id` names no live row and the insert works; the record goes in under the body's non-zero `id`, else under the next key; every failure leaves the store unchanged |
| Preferences.CreateThenGet | controllers/preference/preference.controller.go:48-70 | a created preference reads back under its key and the listing grows by one |
| Preferences.Update | controllers/preference/preference.controller.go:72-104 | 404 on a missing key; an absent name keeps the stored one; succeeds iff the name is free among the rows other than the one written; the row written is `id`, or the one the body's `id` names, or a new one for `"id": 0`; every failure leaves the store unchanged |
| Preferences.UpdateWritesDecodedKey | controllers/preference/preference.controller.go:84-92 | a body without `id` writes row `id`; a body naming another live row overwrites that row and leaves row `id` as it was |
| Preferences.DeleteThenGet | controllers/preference/preference.controller.go:106-129 | a deleted preference is not found and the listing shrinks by one |
| Preferences.Delete | controllers/preference/preference.controller.go:106-129 | 404 on a missing key; success removes exactly the target and no other preference changes |
| Preferences.InsertOrIgnore | controllers/preference/preference.controller.go:169-172 | the insert is skipped iff the name exists (then it points at the existing row); a new row gets a free key |
| Preferences.Step | controllers/preference/preference.controller.go:160-189 | one element either adds exactly one join row for the caller (naming its preference when keys are reused, and the element's own id when the code skips the insert) or stops with 500, keeping the inserted preference when only the join row fails |
| Preferences.Run | controllers/preference/preference.controller.go:160-190 | elements in order; the store only grows (new preferences, appended join rows of the caller) and success adds one row per element; as written, each element whose name already existed leaves its own id in its join row |
| Preferences.AssignWith | controllers/preference/preference.controller.go:131-196 | 401 without caller and 400 on a bad body with nothing written; 409 is never answered; it succeeds exactly when no element's own key is taken by a preference of another name and no scheduled database failure falls on the body; success echoes the body with 201 and appends one caller row per element; names stay unique; with a caller, every outcome only adds preferences, keeps earlier join rows and appends join rows of the caller alone, leaving users, trips, images and files as they were |
| Preferences.RunSucceedsIff | controllers/preference/preference.controller.go:160-190 | the loop reaches its end exactly when no element's insert meets a key held by another name and no database call inside the body fails |
| Preferences.KeylessNeverClash | controllers/preference/preference.controller.go:169-172 | elements sent without an id are given fresh keys, so their inserts never meet a taken key |
| Preferences.AssignAsWritten | controllers/preference/preference.controller.go:169-183 | the code as written: for every element whose name already exists, the skipped insert leaves the element's own id in its join row; with a caller, the store only grows by preferences and join rows of the caller |
| Preferences.Assign | controllers/preference/preference.controller.go:169-183 | the intended assignment: every added join row names a live preference carrying the element's name; with a caller, the store only grows by preferences and join rows of the caller |
| Preferences.FailureKeepsEarlierWrites | controllers/preference/preference.controller.go:160-189 | no transaction: when element k fails, the store is what assigning the first k elements leaves, plus element k's new preference when only its join row fails |
| Preferences.ReassignAddsAnotherRow | controllers/preference/preference.controller.go:161-167 | the "already assigned" check never runs, so re-assigning adds a second identical join row and leaves the catalog as it was |
| Preferences.AsWrittenRowDangles | controllers/preference/preference.controller.go:180-183 | assigning an existing name without an id stores a join row pointing at key 0, which no preference has |
| Preferences.CatalogKeepsNamesUnique | models/preference.go:7 | create, update, delete and both assignments keep preference names unique |
| Auth.Register | controllers/auth/auth.go:30-110 | 400 on a failed binding; 409 iff the email is taken, then nothing is written; it succeeds exactly when the binding passes, the email is free, hashing works, the insert works and a token is signed; success stores name, email, role and hash(password) under a fresh key and answers 201 with the signed token; emails stay unique |
| Auth.OfferedRolesRegistrable | controllers/auth/auth.go:239-257 | every role the role list offers passes the registration binding, and admin is never offered |
| Auth.Login | controllers/auth/auth.go:113-159 | nothing is written; an unknown email, and a password that does not match the first holder's hash, give the identical 401; a matching password answers 200 with that holder and its token, or 500 when signing fails |
| Auth.RegisterThenLogin | controllers/auth/auth.go:78-156 | right after a registration, logging in with the same credentials returns the same token and account |
| Auth.GetProfile | controllers/auth/auth.go:162-185 | 401 without caller, 404 for an absent account, otherwise the caller's own account |
| Auth.RegisterThenProfile | controllers/auth/auth.go:162-185 | the profile of a freshly registered account is that account |
| Auth.UpdateProfile | controllers/auth/auth.go:188-236 | 401 without caller, 404 for an absent account; a non-empty name replaces the name, an empty one changes nothing; email, role and hash are kept |
| Auth.GetRoles | controllers/auth/auth.go:239-257 | exactly visitor, then trip_owner |
| Users.Merge | models/user.go:9 | decoding a body onto a user replaces present fields, keeps absent ones and never the password hash |
| Users.WithDefaultRole | models/user.go:10 | an empty role becomes "user" and nothing else changes |
| Users.GetAll | controllers/user/user.go:12-16 | every user with 200; a failing query still answers 200, with no users |
| Users.GetByID | controllers/user/user.go:19-29 | found iff the key is live, otherwise 404 |
| Users.Create | controllers/user/user.go:32-42 | always 201 once the body decodes, with the default role filled in; a live `id`, a taken email or a failure leaves the store unchanged and echoes the body's key (0 when absent); otherwise the user, with an empty hash, is stored under the body's non-zero `id` or the next key |
| Users.UpdateAsWritten | controllers/user/user.go:45-61 | 404 on a missing key; 200 with the decoded record even when the save is refused; the record written carries row `id`'s hash, at the key the body's `id` names when it has one; a save that goes through writes exactly that one row and moves the key counter past its key, nothing else; emails stay unique |
| Users.BodyIdCopiesHash | controllers/user/user.go:54-59 | a body naming another account's key and email overwrites that account with row `id`'s password hash |
| Users.Update | controllers/user/user.go:45-61 | the intended update: 404 on a missing key; 200 with the merged record written to row `id` even when the save is refused; password hashes never change; emails stay unique |
| Users.UpdateAgreesWithoutForeignId | controllers/user/user.go:54-59 | with no body `id`, or the path's own, the code and the intended update agree |
| Users.ReplaceKeepsEmailsUnique | models/user.go:8 | storing a record whose email no other account holds keeps emails unique |
| Users.Delete | controllers/user/user.go:64-75 | 404 on a missing key; otherwise 200, and the user is removed unless the delete fails |
| Users.HashNeverSetHere | models/user.go:9 | users created here have an empty hash, a create changes no existing account, and the intended update changes no stored hash |
| Users.EmptyPatchIsIdentity | controllers/user/user.go:54-59 | a body naming no field changes nothing and echoes the stored user |
| Users.CreateThenGet | controllers/user/user.go:32-42 | a created user can be read back under its key |
| Users.CreateThenGetAll | controllers/user/user.go:12-42 | a created user is listed, one more than before; a refused one leaves the list as it was |
| Users.DeleteThenGet | controllers/user/user.go:64-75 | a deleted user is then not found |
| ImageNames.Listed | controllers/image/image.go:385-390 | the scan succeeds iff the value is in the list |
| ImageNames.IsValidImageType | controllers/image/image.go:376-391 | valid iff one of image/jpeg, image/jpg, image/png, image/gif, image/webp |
| ImageNames.Ext | controllers/image/image.go:213 | the extension is a suffix of the path, starts with '.' and holds no further '.' or '/' |
| ImageNames.NoExtMeansNoDotInLastElement | controllers/image/image.go:213 | an empty extension means every '.' lies before some '/' |
| ImageNames.ExtOfSuffix | controllers/image/image.go:67 | a name ending in an extension has that extension whatever precedes it |
| ImageNames.ToLower | controllers/image/image.go:213 | lower-casing works character by character and keeps the length |
| ImageNames.ExtOfLower | controllers/image/image.go:213 | lower-casing commutes with taking the extension |
| ImageNames.ToLowerIdempotent | controllers/image/image.go:213 | lower-casing twice is lower-casing once |
| ImageNames.ContentTypeForExt | controllers/image/image.go:214-225 | .jpg and .jpeg map to jpeg, .png, .gif and .webp to their types, each iff; anything else to application/octet-stream |
| ImageNames.FallbackContentType | controllers/image/image.go:213-225 | a name without extension is served as application/octet-stream |
| ImageNames.FallbackIgnoresCase | controllers/image/image.go:266-278 | the fallback content type does not depend on the case of the name |
| ImageNames.ParseUint32 | controllers/image/image.go:311 | succeeds iff the text is a non-empty digit string whose value fits in 32 bits, and then yields that value |
| ImageNames.FormatDecimal | controllers/image/image.go:337 | the decimal rendering is a digit string denoting the number |
| ImageNames.ParseFormatRoundTrip | controllers/image/image.go:337 | parsing the rendering of a 32-bit value gives the value back |
| ImageNames.LeadingZeroIgnored | controllers/image/image.go:44 | a leading zero is accepted and does not change the value |
| ImageNames.FormTripId | controllers/image/image.go:42-48 | an empty or unparsable trip_id is silently absent; otherwise its 32-bit value |
| ImageNames.StoredName | controllers/image/image.go:67-71 | the stored name starts with the prefix and ends with the original extension |
| ImageNames.StoredNameKeepsExtension | controllers/image/image.go:146-150 | the stored name has the original file's extension |
| ImageNames.StoredNameFlat | controllers/image/image.go:147 | the stored name holds no '/' |
| ImageNames.CoverUrlMarked | controllers/image/image.go:164 | a cover URL contains "/covers/" |
| ImageNames.ImageUrlUnmarked | controllers/image/image.go:85 | an image URL of a flat name never contains "/covers/" |
| Images.UrlFor | controllers/image/image.go:85 | the URL is the fixed images or covers base followed by the stored name |
| Images.DirOf | controllers/image/image.go:352-356 | the delete picks the covers directory iff the URL contains "/covers/" |
| Images.DirOfUrlFor | controllers/image/image.go:352-356 | the delete picks the directory the upload wrote to |
| Images.Persist | controllers/image/image.go:76-96 | a failed save writes nothing; a failed insert leaves the saved file; success adds file and record under a fresh key |
| Images.UploadBatch | controllers/image/image.go:59-99 | files in order; any file of a refused type fails the request; the store only gains uploads by the caller; it succeeds exactly when every file has an accepted type and neither its save nor its insert fails; success lists, in order, file `i` under the fresh key `nextId + i` with the name and URL generated for its position, and takes one key per file |
| Images.Upload | controllers/image/image.go:20-105 | 401 without caller, 400 on a bad form or no files with nothing written; it succeeds exactly when there is a caller, a form with files, the directory is made and every file has an accepted type and is saved and inserted; success lists file `i` at `i` under the fresh key `nextId + i`, named from the stamp and UUID drawn for it, with the images URL, its original name, size, type, the caller and the form's trip |
| Images.RejectedFileKeepsEarlier | controllers/image/image.go:59-64 | a refused file k answers 400 and leaves exactly what uploading the files before it leaves |
| Images.UploadCover | controllers/image/image.go:108-181 | 401, then 400 for a missing file or refused type with nothing written; success stores the record and file under the cover prefix and base |
| Images.CoverRecord | controllers/image/image.go:162-170 | the cover record carries the stored name, its covers URL, the uploader and the declared type |
| Images.CoverUploadOutcome | controllers/image/image.go:108-181 | a cover upload by a caller with an accepted type and no failure answers 200 with the record under the next key |
| Images.CoverUploadThenDelete | controllers/image/image.go:329-373 | deleting a just-uploaded cover by its decimal key restores the store apart from the spent key and the stored name in the covers directory |
| Images.DeleteFreshCover | controllers/image/image.go:345-368 | deleting a just-stored cover by its uploader removes exactly its record and its file |
| Images.CoverUploadThenServe | controllers/image/image.go:237-263 | serving a just-uploaded cover sends the type the upload declared |
| Images.ServeFreshCover | controllers/image/image.go:262-263 | serving a name whose only record is the fresh one sends that record's type |
| Images.ServeFile | controllers/image/image.go:184-234 | 400 for an empty name, 404 when the file is not in the directory; the type of the first record with that name, else the extension fallback |
| Images.GetMyImages | controllers/image/image.go:290-306 | 401 without caller; otherwise exactly the caller's uploads |
| Images.GetImagesByTrip | controllers/image/image.go:309-326 | 400 unless the path parses as a 32-bit decimal; otherwise exactly that trip's images |
| Images.CoverUploadListed | controllers/image/image.go:290-326 | a cover upload is listed among the uploader's images and, when the form named a trip, among that trip's |
| Images.DeleteImage | controllers/image/image.go:329-373 | 401, then 400 for a bad id; anyone but the uploader gets the same 404 with nothing changed; an already missing file does not block; success removes record and file |
| Urls.Scheme | utils/url.go:18-26 | http, https over TLS, and a non-empty X-Forwarded-Proto overrides both |
| Urls.GetBaseURL | utils/url.go:11-30 | a set BASE_URL verbatim; otherwise scheme, "://" and host |
| Urls.GetFullImageURL | utils/url.go:33-35 | the base URL followed by the path |
| Urls.EnvOverridesRequest | utils/url.go:13-15 | a set BASE_URL alone decides the base |
| Urls.ForwardedProtoOverridesTls | utils/url.go:24-26 | with a forwarded scheme, TLS does not change the base |
| Urls.FallbackBaseSplits | utils/url.go:28-29 | a fallback base determines its scheme and host, when the scheme holds no ':' |
| Urls.FirstColonEndsScheme | utils/url.go:29 | in a fallback base the first ':' ends the scheme |
| Urls.LocalFallbackBase | utils/url.go:18-29 | a plain-HTTP request to localhost:8080 has the base http://localhost:8080 |
| Urls.FixedBasesAreLocalFallback | controllers/image/image.go:85 | the fixed upload URL bases equal GetFullImageURL for a plain local request |

## Left out

- Route tables, CORS, server start and the auth middleware are not modelled.
  The session is an input. In the real routes a `RequireRole` middleware
  runs before some controllers, so the HTTP-level check order can differ
  from the controller order modelled here.
- Migration, and the cascade of points and images on a trip delete, are not
  modelled.
- Soft-deleted rows are removed from the live map. In the database they still
  hold their unique name and email, so a later insert of the same name or
  email would also be refused. The model does not keep them.
- gorm Preload, and the ids and timestamps that gorm writes into the JSON
  bodies, are not modelled.
- Query parameters of the trip list are strings that the database compares.
  The model takes them as already-typed values.
- The `id` path parameter of the trip, preference and user handlers
  (controllers/trip/trip.go:86, 179, 316;
  controllers/preference/preference.controller.go:34, 76, 110;
  controllers/user/user.go:23, 49, 68) is taken as a key. gorm's `First`
  with a string that does not parse as an integer uses that string as a raw
  SQL condition: text such as `true` or `1=1` selects the live row with the
  lowest key, and the update and delete handlers then act on that row, while
  text that is not valid SQL makes the query fail and the handler answers
  404. The model does not represent that text.
- The type assertion `userID.(uint)` can panic, and in AssignPreference it
  has a 500 branch when it fails. The middleware always stores a uint, so
  that branch is not modelled.
- Seeding:
  - the Overpass HTTP request and its decoding;
  - the random prices, durations and jittered trip points;
  - `FirstOrCreate` of the preferences;
  - the final bulk insert.
  These are all outside the model. Only the element selection, names,
  coordinates, descriptions, cover images and preference names are
  modelled.
- bcrypt, JWT signing and the validator's email syntax are uninterpreted
  parameters.
- `strings.ToLower` is modelled on ASCII letters only.
- `io.Copy` of the file body, the file's bytes and `filepath.Join` path
  cleaning are not modelled. A file is present or absent by its
  `(directory, name)` pair.
- Users.Create and Preferences.Create: a soft-deleted row keeps its key in
  the database, so a body `id` naming it makes the plain INSERT fail there.
  Users.Create (controllers/user/user.go:40) ignores that error and still
  answers 201, and Preferences.Create (controllers/preference/preference.controller.go:58)
  answers 500. The model has removed the row and inserts under that key. The
  two Save paths (controllers/user/user.go:59 and
  controllers/preference/preference.controller.go:92) agree with the model:
  gorm's Save falls back to an insert with `ON CONFLICT (id) DO UPDATE`,
  which revives or overwrites the row, as `Models.SaveTarget` writes it.
- A failing single-row lookup (gorm `First` returning an error other than
  "record not found") is not modelled. The model assumes lookups do not fail,
  so "found" means exactly "the key is live". In the code such an error
  answers like a missing row: 404 at controllers/trip/trip.go:86, 179 and 316,
  controllers/preference/preference.controller.go:34, 76 and 110,
  controllers/user/user.go:23, 49 and 68, controllers/auth/auth.go:173 and
  199, and controllers/image/image.go:345; 401 at controllers/auth/auth.go:125.
  At controllers/auth/auth.go:59 it counts as "email free", so registration
  goes on past the 409 check.
- The `CreatedAt`, `UpdatedAt` and `DeletedAt` fields that a body may carry
  are ignored. Only the `id` and the record's own fields are decoded.
- Auth.Register: the `min=6` password rule counts characters of the decoded
  string. The validator counts runes, and these are the same for the strings
  modelled here.
- Users.Create: on a refused insert the reply's record keeps the key it was
  decoded with, because gorm leaves it as it was. The role is echoed with the
  default filled in, because gorm applies it before the INSERT runs.
- Images.ServeFile: the record lookup is by file name in any directory,
  exactly as the code does. It is not filtered by the serving directory.
- Images.UploadCover: the upload URL is the hard-coded local base. The code
  does not call GetFullImageURL. Urls.FixedBasesAreLocalFallback relates the
  two.
- Unknown preference ids in trip create and update are silently dropped.
  The model follows the code.
- The trip update path binds no validation tags, so it accepts values that
  create refuses. The model follows the code; see Trips.UpdateSkipsValidation.
- The "already assigned" check in AssignPreference builds a query without
  executing it, so its 409 is unreachable. The model never answers 409.

## Findings

| source | as written | input that shows it | evidently intended | confidence | as-written member | corrected member |
|---|---|---|---|---|---|---|
| controllers/preference/preference.controller.go:169-183 | on a name conflict the `ON CONFLICT (name) DO NOTHING` insert is skipped and leaves the element's `ID` as sent, so the join row stores that id | catalog {1: "Art"}, caller 7, body `[{"name": "Art"}]`: the join row is (7, 0) and no preference has key 0 | the join row points at the existing preference called "Art" (key 1) | medium, not executed | Preferences.AssignAsWritten, Preferences.AsWrittenRowDangles | Preferences.Assign |
| controllers/user/user.go:54-59 | the body is decoded onto the loaded user, including its `id`, and `Save` writes wherever that `id` points | users {1: A with hash h1, 2: B with hash h2}, `PUT /users/1` with body `{"id": 2, "email": <B's email>}`: row 2 keeps B's email but gets A's name, role and hash h1 | the record is saved to row 1, the path's key | high, not executed | Users.UpdateAsWritten, Users.BodyIdCopiesHash | Users.Update |

=== FILE: auth.dfy ===
/** The authentication controller (controllers/auth/auth.go): registration,
    login, the caller's own profile and the list of roles a new account may
    take. Password hashing, hash checking, token signing and the email
    syntax check are outside the controller and arrive as parameters. */
module Auth {
  import opened Base
  import opened Models

  /** The helpers the controller calls: bcrypt hashing (which may fail), the
      bcrypt comparison, JWT signing of (user id, email, role) (which may
      fail), and the validator's `email` rule. */
  datatype Services = Services(
    hash: string -> Option<string>,
    matches: (string, string) -> bool,
    token: (Id, string, string) -> Option<string>,
    isEmail: string -> bool)

  /** The registration body after JSON decoding; an absent field is "". */
  datatype RegisterRequest = RegisterRequest(name: string, email: string, password: string, role: string)

  /** The login body after JSON decoding; an absent field is "". */
  datatype LoginRequest = LoginRequest(email: string, password: string)

  /** The `data` of a successful registration or login: the signed token and
      the account (its key and record; the hash is never serialised). */
  datatype AuthData = AuthData(token: string, id: Id, user: User)

  /** One entry of the role list (`caption` is its `label` key). */
  datatype RoleInfo = RoleInfo(value: string, caption: string, description: string)

  /** The roles a registration may ask for (`oneof=visitor trip_owner`). */
  const RegistrableRoles: seq<string> := [Visitor, TripOwner]

  /** The binding tags of RegisterRequest: every field required, a valid
      email, a password of at least six characters and a registrable role. */
  predicate RegisterBindingOk(svc: Services, q: RegisterRequest)
  {
    && q.name != ""
    && q.email != "" && svc.isEmail(q.email)
    && q.password != "" && |q.password| >= 6
    && q.role in RegistrableRoles
  }

  /** The binding tags of LoginRequest. */
  predicate LoginBindingOk(svc: Services, q: LoginRequest)
  {
    q.email != "" && svc.isEmail(q.email) && q.password != ""
  }

  /** The single reply for an unknown email and for a wrong password, so a
      caller cannot tell which of the two it hit. */
  const BadCredentials: Reply<AuthData> := Fail(Unauthorized, "Authentication failed", "Invalid email or password")

  /** POST /auth/register. The account is stored before the token is signed,
      so a signing failure answers 500 but leaves the account in place. */
  function Register(s: Store, svc: Services, body: Option<RegisterRequest>, insertFails: bool): (r: Answer<AuthData>)
    ensures body.None? || !RegisterBindingOk(svc, body.value) ==> r.reply.status == BadRequest && r.store == s
    ensures body.Some? && RegisterBindingOk(svc, body.value) ==>
              (r.reply.status == Conflict <==> EmailTaken(s.users, body.value.email))
    ensures r.reply.status == Conflict ==> r.store == s
    ensures r.reply.Done? <==>
              && body.Some? && RegisterBindingOk(svc, body.value)
              && !EmailTaken(s.users, body.value.email)
              && svc.hash(body.value.password).Some?
              && !insertFails
              && svc.token(s.nextId, body.value.email, body.value.role).Some?
    ensures r.reply.Done? ==>
              && body.Some? && RegisterBindingOk(svc, body.value)
              && !EmailTaken(s.users, body.value.email)
              && r.reply.status == Created
              && svc.hash(body.value.password).Some?
              && r.reply.data.id == s.nextId
              && r.reply.data.user == User(body.value.name, body.value.email, svc.hash(body.value.password).value, body.value.role)
              && Some(r.reply.data.token) == svc.token(s.nextId, body.value.email, body.value.role)
    ensures r.store != s ==>
              && body.Some? && svc.hash(body.value.password).Some?
              && r.store == s.(users := s.users[s.nextId := User(body.value.name, body.value.email, svc.hash(body.value.password).value, body.value.role)],
                               nextId := s.nextId + 1)
    ensures UniqueEmails(s.users) ==> UniqueEmails(r.store.users)
  {
    if body.None? || !RegisterBindingOk(svc, body.value) then
      Answer(Fail(BadRequest, "Validation failed", ""), s)
    else
      var q := body.value;
      if q.role !in RegistrableRoles then
        assert false;
        Answer(Fail(BadRequest, "Invalid role specified", "Role must be either 'visitor' or 'trip_owner'"), s)
      else if Holder(s, q.email).Some? then
        Answer(Fail(Conflict, "User already exists", "A user with this email address already exists"), s)
      else if svc.hash(q.password).None? then
        Answer(Fail(InternalError, "Password processing failed", "Failed to secure your password"), s)
      else if insertFails then
        Answer(Fail(InternalError, "Registration failed", "Failed to create your account"), s)
      else
        var id := s.nextId;
        var user := User(q.name, q.email, svc.hash(q.password).value, q.role);
        var s' := s.(users := s.users[id := user], nextId := id + 1);
        match svc.token(id, user.email, user.role)
        case None => Answer(Fail(InternalError, "Authentication failed", "Failed to generate authentication token"), s')
        case Some(token) => Answer(Done(Created, AuthData(token, id, user)), s')
  }

  /** POST /auth/login: the first account by key holding the email, checked
      against the password; nothing is written. */
  function Login(s: Store, svc: Services, body: Option<LoginRequest>): (r: Answer<AuthData>)
    ensures r.store == s
    ensures body.None? || !LoginBindingOk(svc, body.value) ==> r.reply.status == BadRequest
    ensures body.Some? && LoginBindingOk(svc, body.value) && !EmailTaken(s.users, body.value.email) ==>
              r.reply == BadCredentials
    ensures r.reply.Fail? && r.reply.status == Unauthorized ==> r.reply == BadCredentials
    ensures body.Some? && LoginBindingOk(svc, body.value) && Holder(s, body.value.email).Some? ==>
              var id := Holder(s, body.value.email).value;
              var user := s.users[id];
              && (!svc.matches(body.value.password, user.passwordHash) ==> r.reply == BadCredentials)
              && (svc.matches(body.value.password, user.passwordHash) && svc.token(id, user.email, user.role).Some? ==>
                    r.reply == Done(Ok, AuthData(svc.token(id, user.email, user.role).value, id, user)))
              && (svc.matches(body.value.password, user.passwordHash) && svc.token(id, user.email, user.role).None? ==>
                    r.reply.status == InternalError)
    ensures r.reply.Done? ==>
              && body.Some? && LoginBindingOk(svc, body.value)
              && r.reply.status == Ok
              && r.reply.data.id in s.users
              && r.reply.data.user == s.users[r.reply.data.id]
              && r.reply.data.user.email == body.value.email
              && svc.matches(body.value.password, r.reply.data.user.passwordHash)
              && Some(r.reply.data.token) == svc.token(r.reply.data.id, r.reply.data.user.email, r.reply.data.user.role)
  {
    if body.None? || !LoginBindingOk(svc, body.value) then
      Answer(Fail(BadRequest, "Invalid request", ""), s)
    else
      var q := body.value;
      match Holder(s, q.email)
      case None => Answer(BadCredentials, s)
      case Some(id) =>
        var user := s.users[id];
        if !svc.matches(q.password, user.passwordHash) then Answer(BadCredentials, s)
        else
          match svc.token(id, user.email, user.role)
          case None => Answer(Fail(InternalError, "Authentication failed", "Failed to generate authentication token"), s)
          case Some(token) => Answer(Done(Ok, AuthData(token, id, user)), s)
  }

  /** GET /auth/profile: the caller's own account. */
  function GetProfile(s: Store, who: Session): (r: Answer<(Id, User)>)
    ensures r.store == s
    ensures who.userId.None? ==> r.reply.status == Unauthorized
    ensures who.userId.Some? && who.userId.value !in s.users ==> r.reply.status == NotFound
    ensures r.reply.Done? <==> who.userId.Some? && who.userId.value in s.users
    ensures r.reply.Done? ==> r.reply.data == (who.userId.value, s.users[who.userId.value])
  {
    if who.userId.None? then
      Answer(Fail(Unauthorized, "Authentication required", "User not authenticated"), s)
    else if who.userId.value !in s.users then
      Answer(Fail(NotFound, "User not found", "User profile could not be found"), s)
    else
      var id := who.userId.value;
      Answer(Done(Ok, (id, s.users[id])), s)
  }

  /** PUT /auth/profile: only a non-empty `name` changes anything; email,
      role and password hash are kept. `body` is None when the JSON does not
      decode and otherwise holds the decoded name ("" when absent). */
  function UpdateProfile(s: Store, who: Session, body: Option<string>, saveFails: bool): (r: Answer<(Id, User)>)
    ensures who.userId.None? ==> r.reply.status == Unauthorized
    ensures who.userId.Some? && who.userId.value !in s.users ==> r.reply.status == NotFound
    ensures r.reply.Fail? ==> r.store == s
    ensures r.reply.Done? <==> who.userId.Some? && who.userId.value in s.users && body.Some? && !saveFails
    ensures r.reply.Done? ==>
              var id := who.userId.value;
              var old_ := s.users[id];
              && r.reply.data.0 == id
              && r.reply.data.1.email == old_.email
              && r.reply.data.1.role == old_.role
              && r.reply.data.1.passwordHash == old_.passwordHash
              && (body.value != "" ==> r.reply.data.1.name == body.value)
              && (body.value == "" ==> r.reply.data.1 == old_)
              && r.store == s.(users := s.users[id := r.reply.data.1])
  {
    if who.userId.None? then
      Answer(Fail(Unauthorized, "Authentication required", "User not authenticated"), s)
    else if who.userId.value !in s.users then
      Answer(Fail(NotFound, "User not found", "User profile could not be found"), s)
    else if body.None? then
      Answer(Fail(BadRequest, "Invalid request", ""), s)
    else
      var id := who.userId.value;
      var user := if body.value != "" then s.users[id].(name := body.value) else s.users[id];
      if saveFails then
        Answer(Fail(InternalError, "Update failed", "Failed to update profile"), s)
      else
        Answer(Done(Ok, (id, user)), s.(users := s.users[id := user]))
  }

  /** GET /auth/roles */
  function GetRoles(): (r: Reply<seq<RoleInfo>>)
    ensures r.Done? && r.status == Ok
    ensures |r.data| == |RegistrableRoles|
    ensures forall i :: 0 <= i < |r.data| ==> r.data[i].value == RegistrableRoles[i]
  {
    Done(Ok, [
      RoleInfo(Visitor, "Visitor", "Someone looking for travel experiences and trips"),
      RoleInfo(TripOwner, "Trip Owner", "Someone who creates and manages travel trips")
    ])
  }

  /** Every role the role list offers is one a registration accepts, and the
      administrator role is never offered. */
  lemma OfferedRolesRegistrable(svc: Services, q: RegisterRequest, i: nat)
    requires i < |GetRoles().data|
    requires q.name != "" && q.email != "" && svc.isEmail(q.email) && |q.password| >= 6
    ensures RegisterBindingOk(svc, q.(role := GetRoles().data[i].value))
    ensures GetRoles().data[i].value != Admin
  {
  }

  /** Round trip: right after a successful registration, logging in with the
      same email and password answers with the same token and account,
      provided the password checks against its own hash and the registering
      email was the only one of its kind (which the conflict check ensures). */
  lemma RegisterThenLogin(s: Store, svc: Services, q: RegisterRequest, insertFails: bool)
    requires forall p, h :: svc.hash(p) == Some(h) ==> svc.matches(p, h)
    ensures var r := Register(s, svc, Some(q), insertFails);
            r.reply.Done? ==>
              Login(r.store, svc, Some(LoginRequest(q.email, q.password))).reply == Done(Ok, r.reply.data)
  {
    var r := Register(s, svc, Some(q), insertFails);
    if r.reply.Done? {
      var id := s.nextId;
      var t := r.store;
      assert t.users[id].email == q.email;
      assert forall k :: k in t.users && k != id ==> k in s.users && t.users[k] == s.users[k];
      var found := Holder(t, q.email);
      assert found == Some(id);
    }
  }

  /** After registering, the profile of the new account is the account. */
  lemma RegisterThenProfile(s: Store, svc: Services, q: RegisterRequest, insertFails: bool, role: Option<string>)
    ensures var r := Register(s, svc, Some(q), insertFails);
            r.reply.Done? ==>
              GetProfile(r.store, Session(Some(r.reply.data.id), role)).reply == Done(Ok, (r.reply.data.id, r.reply.data.user))
  {
  }
}

=== FILE: base.dfy ===
/** Vocabulary shared by every controller: optional values, record ids, HTTP
    statuses, the JSON reply envelope and the authenticated session that the
    middleware leaves in the request context. */
module Base {

  /** An optional value: a Go pointer that may be nil, a slice that may be nil,
      a context key that may be unset. */
  datatype Option<+T> = None | Some(value: T) {

    /** The value if present, otherwise `default` (a patch field applied to a record). */
    function GetOr(default: T): T
    {
      match this
      case Some(v) => v
      case None => default
    }
  }

  /** Primary keys (gorm's `uint`). */
  type Id = nat

  /** Largest value `strconv.ParseUint(_, 10, 32)` accepts. */
  const MaxUint32: nat := 0xFFFF_FFFF

  /** The HTTP statuses the controllers answer with. */
  datatype Status = Ok | Created | BadRequest | Unauthorized | Forbidden | NotFound | Conflict | InternalError {
    function Code(): nat
    {
      match this
      case Ok => 200
      case Created => 201
      case BadRequest => 400
      case Unauthorized => 401
      case Forbidden => 403
      case NotFound => 404
      case Conflict => 409
      case InternalError => 500
    }
  }

  /** A JSON reply: a success carrying its `data`, or an error carrying the
      `error` and `message` strings of the body (`message` is "" where the body
      has none or carries validator details instead). */
  datatype Reply<+T> =
    | Done(status: Status, data: T)
    | Fail(status: Status, error: string, message: string)

  /** The `data` and `count` of a list reply, keyed by primary key. */
  datatype Listing<+T> = Listing(items: map<Id, T>, count: nat)

  /** What the authentication middleware stored in the request context:
      the `userID` and `role` keys, each possibly unset. */
  datatype Session = Session(userId: Option<Id>, role: Option<string>)

  const Visitor: string := "visitor"
  const TripOwner: string := "trip_owner"
  const Admin: string := "admin"

  /** The context holds a role key equal to `role` (`c.Get("role")` exists and matches). */
  predicate HasRole(who: Session, role: string)
  {
    who.role == Some(role)
  }
}

=== FILE: imagenames.dfy ===
/** The string helpers of the image controller (controllers/image/image.go):
    the MIME whitelist, `filepath.Ext`, the extension to content-type
    fallback, the decimal parse of ids, the stored file name and the public
    URL of an upload. */
module ImageNames {
  import opened Base

  /** The MIME types an upload may declare, in the order the code tries them. */
  const ValidImageTypes: seq<string> := ["image/jpeg", "image/jpg", "image/png", "image/gif", "image/webp"]

  /** The linear scan of a list of allowed values. */
  function Listed(m: string, allowed: seq<string>): (ok: bool)
    ensures ok <==> m in allowed
  {
    if allowed == [] then false
    else if m == allowed[0] then true
    else
      assert allowed == [allowed[0]] + allowed[1..];
      Listed(m, allowed[1..])
  }

  /** isValidImageType */
  function IsValidImageType(m: string): (ok: bool)
    ensures ok <==> m == "image/jpeg" || m == "image/jpg" || m == "image/png" || m == "image/gif" || m == "image/webp"
  {
    Listed(m, ValidImageTypes)
  }

  // ---------------------------------------------------------------------------
  // filepath.Ext

  /** `filepath.Ext` on a slash-separated path: the suffix from the last '.'
      of the last path element, or "" when that element has no '.'. */
  function Ext(path: string): (e: string)
    ensures |e| <= |path| && e == path[|path| - |e|..]
    ensures e != "" ==> e[0] == '.' && forall j :: 1 <= j < |e| ==> e[j] != '.' && e[j] != '/'
  {
    if path == [] then ""
    else
      var c := path[|path| - 1];
      if c == '/' then ""
      else if c == '.' then "."
      else
        var e := Ext(path[..|path| - 1]);
        if e == "" then "" else e + [c]
  }

  /** An empty extension means every '.' of the path lies before some '/'. */
  lemma {:induction false} NoExtMeansNoDotInLastElement(path: string, j: nat)
    requires Ext(path) == "" && j < |path| && path[j] == '.'
    ensures exists k :: j < k < |path| && path[k] == '/'
  {
    var p := path[..|path| - 1];
    var c := path[|path| - 1];
    if c != '/' {
      assert c != '.';
      assert Ext(p) == "";
      assert p[j] == '.';
      NoExtMeansNoDotInLastElement(p, j);
      var k :| j < k < |p| && p[k] == '/';
      assert path[k] == '/';
    }
  }

  /** A name that ends in an extension has that extension, whatever comes
      before it. */
  lemma {:induction false} ExtOfSuffix(x: string, e: string)
    requires e != "" && e[0] == '.'
    requires forall j :: 1 <= j < |e| ==> e[j] != '.' && e[j] != '/'
    ensures Ext(x + e) == e
  {
    if |e| > 1 {
      var e' := e[..|e| - 1];
      assert (x + e)[..|x + e| - 1] == x + e';
      ExtOfSuffix(x, e');
      assert e' + [e[|e| - 1]] == e;
    }
  }

  // ---------------------------------------------------------------------------
  // Content types

  /** ASCII lower-casing of one character. */
  function Lower(c: char): char
  {
    if 'A' <= c <= 'Z' then (c as int + 32) as char else c
  }

  /** strings.ToLower, restricted to ASCII letters. */
  function ToLower(s: string): (t: string)
    ensures |t| == |s| && forall i :: 0 <= i < |s| ==> t[i] == Lower(s[i])
  {
    if s == [] then [] else ToLower(s[..|s| - 1]) + [Lower(s[|s| - 1])]
  }

  /** Lower-casing keeps dots and slashes where they are, so it commutes
      with taking the extension. */
  lemma {:induction false} ExtOfLower(path: string)
    ensures Ext(ToLower(path)) == ToLower(Ext(path))
  {
    if path != [] {
      var p := path[..|path| - 1];
      var c := path[|path| - 1];
      assert path == p + [c];
      ToLowerSnoc(p, c);
      ExtOfLower(p);
      ExtOfLowerStep(p, c);
    }
  }

  lemma ToLowerSnoc(p: string, c: char)
    ensures ToLower(p + [c]) == ToLower(p) + [Lower(c)]
  {
    assert (p + [c])[..|p|] == p;
  }

  /** One step of ExtOfLower: appending a character to the path. */
  lemma ExtOfLowerStep(p: string, c: char)
    requires Ext(ToLower(p)) == ToLower(Ext(p))
    requires ToLower(p + [c]) == ToLower(p) + [Lower(c)]
    ensures Ext(ToLower(p + [c])) == ToLower(Ext(p + [c]))
  {
    var lp := ToLower(p) + [Lower(c)];
    assert lp[..|lp| - 1] == ToLower(p);
    assert (p + [c])[..|p|] == p;
    if c == '/' {
      ExtAtSlash(p, c);
      ExtAtSlash(ToLower(p), Lower(c));
    } else if c == '.' {
      ExtAtDot(p, c);
      ExtAtDot(ToLower(p), Lower(c));
    } else {
      ExtAtOther(p, c);
      ExtAtOther(ToLower(p), Lower(c));
      if Ext(p) != "" {
        ToLowerSnoc(Ext(p), c);
      }
    }
  }

  lemma ExtAtSlash(p: string, c: char)
    requires c == '/'
    ensures Ext(p + [c]) == ""
  {
  }

  lemma ExtAtDot(p: string, c: char)
    requires c == '.'
    ensures Ext(p + [c]) == "."
  {
  }

  lemma ExtAtOther(p: string, c: char)
    requires c != '/' && c != '.'
    ensures Ext(p + [c]) == if Ext(p) == "" then "" else Ext(p) + [c]
  {
    assert (p + [c])[..|p|] == p;
  }

  lemma ToLowerIdempotent(s: string)
    ensures ToLower(ToLower(s)) == ToLower(s)
  {
  }

  const OctetStream: string := "application/octet-stream"

  /** The extension table of GetImage and GetCoverImage. */
  function ContentTypeForExt(ext: string): (t: string)
    ensures (ext == ".jpg" || ext == ".jpeg") <==> t == "image/jpeg"
    ensures ext == ".png" <==> t == "image/png"
    ensures ext == ".gif" <==> t == "image/gif"
    ensures ext == ".webp" <==> t == "image/webp"
    ensures t == OctetStream || IsValidImageType(t)
    ensures ext != ".jpg" && ext != ".jpeg" && ext != ".png" && ext != ".gif" && ext != ".webp" ==> t == OctetStream
  {
    match ext
    case ".jpg" => "image/jpeg"
    case ".jpeg" => "image/jpeg"
    case ".png" => "image/png"
    case ".gif" => "image/gif"
    case ".webp" => "image/webp"
    case _ => OctetStream
  }

  /** The content type served when no image record names the file: looked
      up by the lower-cased extension. */
  function FallbackContentType(fileName: string): (t: string)
    ensures ToLower(Ext(fileName)) == ".png" ==> t == "image/png"
    ensures Ext(fileName) == "" ==> t == OctetStream
  {
    ContentTypeForExt(ToLower(Ext(fileName)))
  }

  /** The fallback ignores the case of the name. */
  lemma FallbackIgnoresCase(fileName: string)
    ensures FallbackContentType(ToLower(fileName)) == FallbackContentType(fileName)
  {
    ExtOfLower(fileName);
    ToLowerIdempotent(Ext(fileName));
    assert ToLower(Ext(ToLower(fileName))) == ToLower(Ext(fileName));
  }

  // ---------------------------------------------------------------------------
  // strconv.ParseUint(s, 10, 32)

  predicate IsDigit(c: char)
  {
    '0' <= c <= '9'
  }

  predicate AllDigits(s: string)
  {
    forall i :: 0 <= i < |s| ==> IsDigit(s[i])
  }

  /** The value of a digit string, most significant digit first. */
  function Decimal(s: string): nat
    requires AllDigits(s)
  {
    if s == [] then 0 else Decimal(s[..|s| - 1]) * 10 + (s[|s| - 1] as int - '0' as int)
  }

  /** ParseUint with base 10 and bit size 32: no sign, no prefix, no
      underscore, at least one digit, and a value that fits in 32 bits. */
  function ParseUint32(s: string): (r: Option<nat>)
    ensures r.Some? <==> s != "" && AllDigits(s) && Decimal(s) <= MaxUint32
    ensures r.Some? ==> r.value == Decimal(s) && r.value <= MaxUint32
  {
    if s != "" && AllDigits(s) && Decimal(s) <= MaxUint32 then Some(Decimal(s)) else None
  }

  /** The decimal rendering of `n` (what a client sends for an id). */
  function FormatDecimal(n: nat): (s: string)
    ensures s != "" && AllDigits(s) && Decimal(s) == n
  {
    var d := ['0' + (n % 10) as char];
    if n < 10 then
      assert Decimal(d) == Decimal(d[..0]) * 10 + n;
      d
    else
      var hi := FormatDecimal(n / 10);
      var s := hi + d;
      assert s[..|s| - 1] == hi;
      s
  }

  /** Every 32-bit value survives rendering and parsing. */
  lemma ParseFormatRoundTrip(n: nat)
    requires n <= MaxUint32
    ensures ParseUint32(FormatDecimal(n)) == Some(n)
  {
  }

  /** Leading zeros are accepted and do not change the value. */
  lemma {:induction false} LeadingZeroIgnored(s: string)
    requires s != "" && AllDigits(s)
    ensures AllDigits("0" + s) && Decimal("0" + s) == Decimal(s)
    ensures ParseUint32("0" + s) == ParseUint32(s)
  {
    assert AllDigits("0" + s);
    if |s| > 1 {
      var p := s[..|s| - 1];
      assert ("0" + s)[..|"0" + s| - 1] == "0" + p;
      LeadingZeroIgnored(p);
    } else {
      assert ("0" + s)[..1] == "0";
    }
  }

  /** The optional `trip_id` form field: an empty or unparsable value is
      silently treated as absent. */
  function FormTripId(field: string): (r: Option<Id>)
    ensures r == ParseUint32(field)
    ensures r.Some? ==> r.value <= MaxUint32
  {
    if field == "" then None else ParseUint32(field)
  }

  // ---------------------------------------------------------------------------
  // Stored names and URLs

  const ImagePrefix: string := "image_"
  const CoverPrefix: string := "cover_"

  /** Neither prefix holds a '.' or a '/'. */
  lemma PrefixesPlain()
    ensures '.' !in ImagePrefix && '/' !in ImagePrefix
    ensures '.' !in CoverPrefix && '/' !in CoverPrefix
  {
  }

  /** The name a file is stored under: prefix, upload time, '_', a UUID and
      the original name's extension. */
  function StoredName(prefix: string, stamp: string, uuid: string, original: string): (name: string)
    ensures |name| >= |prefix| + |Ext(original)| && name[..|prefix|] == prefix
    ensures name[|name| - |Ext(original)|..] == Ext(original)
  {
    var name := prefix + stamp + "_" + uuid + Ext(original);
    assert name[..|prefix|] == prefix;
    name
  }

  /** The stored name keeps the original extension, provided the time stamp
      and the UUID hold no '.' (neither format does). */
  lemma StoredNameKeepsExtension(prefix: string, stamp: string, uuid: string, original: string)
    requires '.' !in prefix && '.' !in stamp && '.' !in uuid
    ensures Ext(StoredName(prefix, stamp, uuid, original)) == Ext(original)
  {
    var x := prefix + stamp + "_" + uuid;
    var e := Ext(original);
    assert StoredName(prefix, stamp, uuid, original) == x + e;
    if e != "" {
      ExtOfSuffix(x, e);
    } else {
      assert forall j :: 0 <= j < |x| ==> x[j] != '.';
    }
  }

  /** A stored name has no '/' when the stamp, UUID and prefix have none. */
  lemma StoredNameFlat(prefix: string, stamp: string, uuid: string, original: string)
    requires '/' !in prefix && '/' !in stamp && '/' !in uuid
    ensures '/' !in StoredName(prefix, stamp, uuid, original)
  {
    var x := prefix + stamp + "_" + uuid;
    var e := Ext(original);
    assert StoredName(prefix, stamp, uuid, original) == x + e;
    assert forall j :: 0 <= j < |x| ==> x[j] != '/';
  }

  const ImagesUrlBase: string := "http://localhost:8080/api/v1/images/"
  const CoversUrlBase: string := "http://localhost:8080/api/v1/covers/"
  const CoversMarker: string := "/covers/"

  /** `sub` occurs in `s` at position `i`. */
  predicate OccursAt(s: string, sub: string, i: nat)
  {
    i + |sub| <= |s| && s[i..i + |sub|] == sub
  }

  /** strings.Contains */
  predicate Contains(s: string, sub: string)
  {
    exists i :: 0 <= i <= |s| && OccursAt(s, sub, i)
  }

  /** A cover URL mentions the covers directory. */
  lemma CoverUrlMarked(name: string)
    ensures Contains(CoversUrlBase + name, CoversMarker)
  {
    var u := CoversUrlBase + name;
    assert u[28..36] == CoversMarker;
    assert OccursAt(u, CoversMarker, 28);
  }

  /** An image URL of a name without '/' never mentions the covers
      directory: the base holds no 'r', so an occurrence would have to end
      inside the name, which holds no '/'. */
  lemma ImageUrlUnmarked(name: string)
    requires '/' !in name
    ensures !Contains(ImagesUrlBase + name, CoversMarker)
  {
    var u := ImagesUrlBase + name;
    assert 'r' !in ImagesUrlBase;
    assert |CoversMarker| == 8 && CoversMarker[5] == 'r' && CoversMarker[7] == '/';
    forall i | 0 <= i <= |u|
      ensures !OccursAt(u, CoversMarker, i)
    {
      if i + 8 <= |u| {
        if i + 5 < |ImagesUrlBase| {
          assert u[i + 5] == ImagesUrlBase[i + 5];
          assert u[i..i + 8][5] != 'r';
        } else {
          assert u[i + 7] == name[i + 7 - |ImagesUrlBase|];
          assert u[i..i + 8][7] != '/';
        }
      }
    }
  }
}

=== FILE: images.dfy ===
/** The image controller (controllers/image/image.go): batch and cover
    uploads, serving a stored file, listing records and the uploader-only
    delete. The two upload directories are the `files` set of the store;
    the time stamp and UUID of each stored name are parameters. */
module Images {
  import opened Base
  import opened Models
  import opened ImageNames

  /** One file of a multipart form: the client's name for it, its size and
      the Content-Type its part header declares. */
  datatype UploadFile = UploadFile(fileName: string, size: int, contentType: string)

  /** The filesystem or database call of an upload that fails: creating the
      directory, or saving or recording the file at a batch position. */
  datatype UploadFault = MkdirFails | SaveFails(index: nat) | InsertFails(index: nat)

  /** The time stamp and UUID used for the file at each batch position. */
  datatype Namer = Namer(stamp: nat -> string, uuid: nat -> string)

  /** The public URL of a stored file. */
  function UrlFor(dir: Dir, name: string): (url: string)
    ensures dir == ImagesDir ==> url == ImagesUrlBase + name
    ensures dir == CoversDir ==> url == CoversUrlBase + name
  {
    (if dir == CoversDir then CoversUrlBase else ImagesUrlBase) + name
  }

  /** The directory DeleteImage removes from: covers exactly when the URL
      mentions the covers directory. */
  function DirOf(url: string): (dir: Dir)
    ensures dir == CoversDir <==> Contains(url, CoversMarker)
  {
    if Contains(url, CoversMarker) then CoversDir else ImagesDir
  }

  /** The delete finds the directory an upload wrote to, for any stored name
      without '/'. */
  lemma DirOfUrlFor(dir: Dir, name: string)
    requires '/' !in name
    ensures DirOf(UrlFor(dir, name)) == dir
  {
    if dir == CoversDir {
      CoverUrlMarked(name);
    } else {
      ImageUrlUnmarked(name);
    }
  }

  /** A record an upload by `user` into `dir` writes, with its file on disk. */
  predicate UploadedInto(img: Image, user: Id, tripId: Option<Id>, dir: Dir, files: set<(Dir, string)>)
  {
    && img.uploadedBy == Some(user)
    && img.tripId == tripId
    && IsValidImageType(img.mimeType)
    && img.url == UrlFor(dir, img.fileName)
    && (dir, img.fileName) in files
  }

  /** `t` differs from `s` only by files added to `dir` and by records of
      such uploads under new keys. */
  predicate Extends(s: Db, t: Db, user: Id, tripId: Option<Id>, dir: Dir)
  {
    && t.users == s.users && t.trips == s.trips && t.preferences == s.preferences
    && t.userPreferences == s.userPreferences
    && s.files <= t.files
    && (forall f :: f in t.files && f !in s.files ==> f.0 == dir)
    && (forall k :: k in s.images ==> k in t.images && t.images[k] == s.images[k])
    && (forall k :: k in t.images && k !in s.images ==> UploadedInto(t.images[k], user, tripId, dir, t.files))
  }

  lemma ExtendsTransitive(a: Db, b: Db, c: Db, user: Id, tripId: Option<Id>, dir: Dir)
    requires Extends(a, b, user, tripId, dir) && Extends(b, c, user, tripId, dir)
    ensures Extends(a, c, user, tripId, dir)
  {
  }

  /** The outcome of saving one accepted file and recording it. */
  datatype Persisted = Stored(store: Store, id: Id, image: Image) | SaveFailed(store: Store) | InsertFailed(store: Store)

  /** SaveUploadedFile, then Create of the record. A failed save writes
      nothing; a failed insert leaves the saved file on disk. */
  function Persist(s: Store, user: Id, file: UploadFile, dir: Dir, name: string, tripId: Option<Id>,
                   saveFails: bool, insertFails: bool): (r: Persisted)
    requires IsValidImageType(file.contentType)
    ensures Extends(s, r.store, user, tripId, dir)
    ensures r.Stored? <==> !saveFails && !insertFails
    ensures r.SaveFailed? ==> r.store == s
    ensures r.InsertFailed? ==> r.store == s.(files := s.files + {(dir, name)})
    ensures r.Stored? ==>
              && r.id == s.nextId
              && r.image == Image(tripId, UrlFor(dir, name), name, file.fileName, file.size, file.contentType, Some(user))
              && r.store == s.(images := s.images[r.id := r.image], files := s.files + {(dir, name)}, nextId := s.nextId + 1)
  {
    if saveFails then SaveFailed(s)
    else
      var s1 := s.(files := s.files + {(dir, name)});
      if insertFails then InsertFailed(s1)
      else
        var id := s.nextId;
        var img := Image(tripId, UrlFor(dir, name), name, file.fileName, file.size, file.contentType, Some(user));
        Stored(s1.(images := s1.images[id := img], nextId := id + 1), id, img)
  }

  /** `items` lists, in order, records of `t` made from `files`. */
  predicate Lists(t: Db, items: seq<(Id, Image)>, files: seq<UploadFile>)
  {
    && |items| == |files|
    && forall i :: 0 <= i < |items| ==>
         && items[i].0 in t.images && t.images[items[i].0] == items[i].1
         && items[i].1.originalName == files[i].fileName
         && items[i].1.mimeType == files[i].contentType
  }

  /** The loop of Upload from batch position `pos` on. Each file is checked,
      saved and recorded before the next is looked at, so a later failure
      keeps the earlier files and records. */
  function BatchLoop(s: Store, user: Id, files: seq<UploadFile>, pos: nat, tripId: Option<Id>, namer: Namer,
                     fault: Option<UploadFault>, acc: seq<(Id, Image)>): Answer<seq<(Id, Image)>>
    decreases |files|
  {
    if files == [] then Answer(Done(Ok, acc), s)
    else
      var f := files[0];
      if !IsValidImageType(f.contentType) then
        Answer(Fail(BadRequest, "Invalid file type for " + f.fileName, ""), s)
      else
        match PersistFirst(s, user, files, pos, tripId, namer, fault)
        case SaveFailed(t) => Answer(Fail(InternalError, "Failed to save file", ""), t)
        case InsertFailed(t) => Answer(Fail(InternalError, "Failed to save image record", ""), t)
        case Stored(t, id, img) => BatchLoop(t, user, files[1..], pos + 1, tripId, namer, fault, acc + [(id, img)])
  }

  /** Saving and recording the first of `files`, at batch position `pos`,
      under its generated name. */
  function PersistFirst(s: Store, user: Id, files: seq<UploadFile>, pos: nat, tripId: Option<Id>, namer: Namer,
                        fault: Option<UploadFault>): Persisted
    requires files != [] && IsValidImageType(files[0].contentType)
  {
    var name := StoredName(ImagePrefix, namer.stamp(pos), namer.uuid(pos), files[0].fileName);
    Persist(s, user, files[0], ImagesDir, name, tripId, fault == Some(SaveFails(pos)), fault == Some(InsertFails(pos)))
  }

  /** The record Upload writes for file `f` at batch position `pos`. */
  function BatchRecord(user: Id, f: UploadFile, pos: nat, tripId: Option<Id>, namer: Namer): Image
  {
    var name := StoredName(ImagePrefix, namer.stamp(pos), namer.uuid(pos), f.fileName);
    Image(tripId, UrlFor(ImagesDir, name), name, f.fileName, f.size, f.contentType, Some(user))
  }

  /** File `f` at batch position `pos` passes the type check and is saved and
      recorded without a fault. */
  predicate GoesThrough(f: UploadFile, pos: nat, fault: Option<UploadFault>)
  {
    IsValidImageType(f.contentType) && fault != Some(SaveFails(pos)) && fault != Some(InsertFails(pos))
  }

  /** Every file from batch position `pos` on goes through, stated the way
      the loop walks the files. */
  predicate AllGoThrough(files: seq<UploadFile>, pos: nat, fault: Option<UploadFault>)
    decreases |files|
  {
    files == [] || (GoesThrough(files[0], pos, fault) && AllGoThrough(files[1..], pos + 1, fault))
  }

  lemma {:induction false} AllGoThroughEach(files: seq<UploadFile>, pos: nat, fault: Option<UploadFault>)
    requires AllGoThrough(files, pos, fault)
    ensures forall i :: 0 <= i < |files| ==> GoesThrough(files[i], pos + i, fault)
    decreases |files|
  {
    if files != [] {
      AllGoThroughEach(files[1..], pos + 1, fault);
      forall i | 1 <= i < |files|
        ensures GoesThrough(files[i], pos + i, fault)
      {
        assert files[1..][i - 1] == files[i];
      }
    }
  }

  lemma {:induction false} EachGoesThrough(files: seq<UploadFile>, pos: nat, fault: Option<UploadFault>)
    requires forall i :: 0 <= i < |files| ==> GoesThrough(files[i], pos + i, fault)
    ensures AllGoThrough(files, pos, fault)
    decreases |files|
  {
    if files != [] {
      assert GoesThrough(files[0], pos + 0, fault);
      forall j | 0 <= j < |files[1..]|
        ensures GoesThrough(files[1..][j], pos + 1 + j, fault)
      {
        assert files[1..][j] == files[j + 1];
      }
      EachGoesThrough(files[1..], pos + 1, fault);
    }
  }

  /** The two readings of "every file goes through" agree. */
  lemma AllGoThroughIff(files: seq<UploadFile>, pos: nat, fault: Option<UploadFault>)
    ensures AllGoThrough(files, pos, fault) <==> forall i :: 0 <= i < |files| ==> GoesThrough(files[i], pos + i, fault)
  {
    if AllGoThrough(files, pos, fault) {
      AllGoThroughEach(files, pos, fault);
    } else if forall i :: 0 <= i < |files| ==> GoesThrough(files[i], pos + i, fault) {
      EachGoesThrough(files, pos, fault);
    }
  }

  /** The loop only adds the caller's uploads, succeeds with 200 and fails
      with 400 or 500. */
  lemma {:induction false} BatchLoopExtends(s: Store, user: Id, files: seq<UploadFile>, pos: nat, tripId: Option<Id>, namer: Namer,
                                            fault: Option<UploadFault>, acc: seq<(Id, Image)>)
    ensures var r := BatchLoop(s, user, files, pos, tripId, namer, fault, acc);
            && Extends(s, r.store, user, tripId, ImagesDir)
            && (r.reply.Done? ==> r.reply.status == Ok)
            && (r.reply.Fail? ==> r.reply.status == BadRequest || r.reply.status == InternalError)
    decreases |files|
  {
    if files != [] && IsValidImageType(files[0].contentType) {
      var p := PersistFirst(s, user, files, pos, tripId, namer, fault);
      if p.Stored? {
        var acc' := acc + [(p.id, p.image)];
        BatchLoopExtends(p.store, user, files[1..], pos + 1, tripId, namer, fault, acc');
        ExtendsTransitive(s, p.store, BatchLoop(p.store, user, files[1..], pos + 1, tripId, namer, fault, acc').store, user, tripId, ImagesDir);
      }
    }
  }

  /** The loop succeeds exactly when every file goes through. */
  lemma {:induction false} BatchLoopSucceedsIff(s: Store, user: Id, files: seq<UploadFile>, pos: nat, tripId: Option<Id>, namer: Namer,
                                                fault: Option<UploadFault>, acc: seq<(Id, Image)>)
    ensures BatchLoop(s, user, files, pos, tripId, namer, fault, acc).reply.Done? <==> AllGoThrough(files, pos, fault)
    decreases |files|
  {
    if files != [] && IsValidImageType(files[0].contentType) {
      var p := PersistFirst(s, user, files, pos, tripId, namer, fault);
      if p.Stored? {
        BatchLoopSucceedsIff(p.store, user, files[1..], pos + 1, tripId, namer, fault, acc + [(p.id, p.image)]);
      }
    }
  }

  /** If `r` succeeded, it lists `acc` followed by one record of its store
      per file of `files`. */
  predicate ListsAfter(r: Answer<seq<(Id, Image)>>, acc: seq<(Id, Image)>, files: seq<UploadFile>)
  {
    r.reply.Done? ==>
      && |r.reply.data| == |acc| + |files|
      && r.reply.data[..|acc|] == acc
      && Lists(r.store, r.reply.data[|acc|..], files)
  }

  /** A successful loop lists `acc` followed by one record per file, each
      stored in the resulting store. */
  lemma {:induction false} BatchLoopLists(s: Store, user: Id, files: seq<UploadFile>, pos: nat, tripId: Option<Id>, namer: Namer,
                                          fault: Option<UploadFault>, acc: seq<(Id, Image)>)
    ensures ListsAfter(BatchLoop(s, user, files, pos, tripId, namer, fault, acc), acc, files)
    decreases |files|
  {
    if files != [] && IsValidImageType(files[0].contentType) {
      var p := PersistFirst(s, user, files, pos, tripId, namer, fault);
      if p.Stored? {
        var acc' := acc + [(p.id, p.image)];
        var r := BatchLoop(p.store, user, files[1..], pos + 1, tripId, namer, fault, acc');
        BatchLoopLists(p.store, user, files[1..], pos + 1, tripId, namer, fault, acc');
        BatchLoopExtends(p.store, user, files[1..], pos + 1, tripId, namer, fault, acc');
        BatchKeepsFirst(p.store, r, files, acc, p.id, p.image);
      }
    }
  }

  lemma BatchKeepsFirst(t: Store, r: Answer<seq<(Id, Image)>>, files: seq<UploadFile>, acc: seq<(Id, Image)>, id: Id, img: Image)
    requires |files| > 0
    requires id in t.images && t.images[id] == img
    requires img.originalName == files[0].fileName && img.mimeType == files[0].contentType
    requires forall k :: k in t.images ==> k in r.store.images && r.store.images[k] == t.images[k]
    requires ListsAfter(r, acc + [(id, img)], files[1..])
    ensures ListsAfter(r, acc, files)
  {
    if r.reply.Done? {
      var d := r.reply.data;
      var n := |acc|;
      assert d[..n] == d[..n + 1][..n];
      assert d[n] == d[..n + 1][n];
      var rest := d[n..];
      var tail := d[n + 1..];
      forall i | 0 <= i < |files|
        ensures rest[i].0 in r.store.images && r.store.images[rest[i].0] == rest[i].1
        ensures rest[i].1.originalName == files[i].fileName
        ensures rest[i].1.mimeType == files[i].contentType
      {
        if i > 0 {
          assert rest[i] == tail[i - 1];
          assert files[1..][i - 1] == files[i];
        }
      }
    }
  }

  /** A successful loop takes one key per file. */
  lemma {:induction false} BatchLoopNextId(s: Store, user: Id, files: seq<UploadFile>, pos: nat, tripId: Option<Id>, namer: Namer,
                                           fault: Option<UploadFault>, acc: seq<(Id, Image)>)
    ensures var r := BatchLoop(s, user, files, pos, tripId, namer, fault, acc);
            r.reply.Done? ==> r.store.nextId == s.nextId + |files|
    decreases |files|
  {
    if files != [] && IsValidImageType(files[0].contentType) {
      var p := PersistFirst(s, user, files, pos, tripId, namer, fault);
      if p.Stored? {
        BatchLoopNextId(p.store, user, files[1..], pos + 1, tripId, namer, fault, acc + [(p.id, p.image)]);
      }
    }
  }

  /** A successful loop leaves `acc` in front of what it lists. */
  lemma {:induction false} BatchLoopPrefix(s: Store, user: Id, files: seq<UploadFile>, pos: nat, tripId: Option<Id>, namer: Namer,
                                           fault: Option<UploadFault>, acc: seq<(Id, Image)>)
    ensures var r := BatchLoop(s, user, files, pos, tripId, namer, fault, acc);
            r.reply.Done? ==> |r.reply.data| == |acc| + |files| && forall j :: 0 <= j < |acc| ==> r.reply.data[j] == acc[j]
    decreases |files|
  {
    if files != [] && IsValidImageType(files[0].contentType) {
      var p := PersistFirst(s, user, files, pos, tripId, namer, fault);
      if p.Stored? {
        BatchLoopPrefix(p.store, user, files[1..], pos + 1, tripId, namer, fault, acc + [(p.id, p.image)]);
      }
    }
  }

  /** One turn of the loop: a successful run stores the first file under
      the next key and then runs on from there. */
  lemma BatchLoopStep(s: Store, user: Id, files: seq<UploadFile>, pos: nat, tripId: Option<Id>, namer: Namer,
                      fault: Option<UploadFault>, acc: seq<(Id, Image)>)
    requires files != []
    ensures BatchLoop(s, user, files, pos, tripId, namer, fault, acc).reply.Done? ==> IsValidImageType(files[0].contentType)
    ensures IsValidImageType(files[0].contentType) ==>
            var p := PersistFirst(s, user, files, pos, tripId, namer, fault);
            && (BatchLoop(s, user, files, pos, tripId, namer, fault, acc).reply.Done? ==> p.Stored?)
            && (p.Stored? ==>
                  && p.id == s.nextId && p.image == BatchRecord(user, files[0], pos, tripId, namer) && p.store.nextId == s.nextId + 1
                  && (BatchLoop(s, user, files, pos, tripId, namer, fault, acc).reply.Done?
                      <==> BatchLoop(p.store, user, files[1..], pos + 1, tripId, namer, fault, acc + [(p.id, p.image)]).reply.Done?)
                  && (BatchLoop(s, user, files, pos, tripId, namer, fault, acc).reply.Done? ==>
                        BatchLoop(s, user, files, pos, tripId, namer, fault, acc).reply.data
                        == BatchLoop(p.store, user, files[1..], pos + 1, tripId, namer, fault, acc + [(p.id, p.image)]).reply.data))
  {
  }

  lemma FirstRecord(s: Store, user: Id, files: seq<UploadFile>, pos: nat, tripId: Option<Id>, namer: Namer,
                    fault: Option<UploadFault>, acc: seq<(Id, Image)>)
    requires files != [] && BatchLoop(s, user, files, pos, tripId, namer, fault, acc).reply.Done?
    ensures |acc| < |BatchLoop(s, user, files, pos, tripId, namer, fault, acc).reply.data|
    ensures BatchLoop(s, user, files, pos, tripId, namer, fault, acc).reply.data[|acc|] == (s.nextId, BatchRecord(user, files[0], pos, tripId, namer))
  {
    BatchLoopStep(s, user, files, pos, tripId, namer, fault, acc);
    var p := PersistFirst(s, user, files, pos, tripId, namer, fault);
    BatchLoopPrefix(p.store, user, files[1..], pos + 1, tripId, namer, fault, acc + [(p.id, p.image)]);
  }

  /** File `i` of a successful loop is listed at `k`, under key `n`, named
      for batch position `at`. The three are parameters so that each step
      of the induction meets the same terms. */
  lemma {:induction false} BatchLoopRecordAt(s: Store, user: Id, files: seq<UploadFile>, pos: nat, tripId: Option<Id>, namer: Namer,
                                             fault: Option<UploadFault>, acc: seq<(Id, Image)>, i: nat, k: nat, n: Id, at: nat)
    requires i < |files| && BatchLoop(s, user, files, pos, tripId, namer, fault, acc).reply.Done?
    requires k == |acc| + i && n == s.nextId + i && at == pos + i
    ensures k < |BatchLoop(s, user, files, pos, tripId, namer, fault, acc).reply.data|
    ensures BatchLoop(s, user, files, pos, tripId, namer, fault, acc).reply.data[k] == (n, BatchRecord(user, files[i], at, tripId, namer))
    decreases i, 1
  {
    if i == 0 {
      RecordBase(s, user, files, pos, tripId, namer, fault, acc, i, k, n, at);
    } else {
      RecordNext(s, user, files, pos, tripId, namer, fault, acc, i, k, n, at);
    }
  }

  lemma {:induction false} RecordNext(s: Store, user: Id, files: seq<UploadFile>, pos: nat, tripId: Option<Id>, namer: Namer,
                                      fault: Option<UploadFault>, acc: seq<(Id, Image)>, i: nat, k: nat, n: Id, at: nat)
    requires 0 < i < |files| && BatchLoop(s, user, files, pos, tripId, namer, fault, acc).reply.Done?
    requires k == |acc| + i && n == s.nextId + i && at == pos + i
    ensures k < |BatchLoop(s, user, files, pos, tripId, namer, fault, acc).reply.data|
    ensures BatchLoop(s, user, files, pos, tripId, namer, fault, acc).reply.data[k] == (n, BatchRecord(user, files[i], at, tripId, namer))
    decreases i, 0
  {
    RecordStep(s, user, files, pos, tripId, namer, fault, acc, i, k, n, at);
    var p := PersistFirst(s, user, files, pos, tripId, namer, fault);
    BatchLoopRecordAt(p.store, user, files[1..], pos + 1, tripId, namer, fault, acc + [(p.id, p.image)], i - 1, k, n, at);
  }

  lemma RecordStep(s: Store, user: Id, files: seq<UploadFile>, pos: nat, tripId: Option<Id>, namer: Namer,
                   fault: Option<UploadFault>, acc: seq<(Id, Image)>, i: nat, k: nat, n: Id, at: nat)
    requires 0 < i < |files| && BatchLoop(s, user, files, pos, tripId, namer, fault, acc).reply.Done?
    requires k == |acc| + i && n == s.nextId + i && at == pos + i
    ensures IsValidImageType(files[0].contentType)
    ensures var p := PersistFirst(s, user, files, pos, tripId, namer, fault);
            && p.Stored?
            && BatchLoop(p.store, user, files[1..], pos + 1, tripId, namer, fault, acc + [(p.id, p.image)]).reply.Done?
            && k == |acc + [(p.id, p.image)]| + (i - 1) && n == p.store.nextId + (i - 1) && at == (pos + 1) + (i - 1)
            && files[1..][i - 1] == files[i]
            && BatchLoop(s, user, files, pos, tripId, namer, fault, acc).reply.data
               == BatchLoop(p.store, user, files[1..], pos + 1, tripId, namer, fault, acc + [(p.id, p.image)]).reply.data
  {
    BatchLoopStep(s, user, files, pos, tripId, namer, fault, acc);
  }

  lemma RecordBase(s: Store, user: Id, files: seq<UploadFile>, pos: nat, tripId: Option<Id>, namer: Namer,
                   fault: Option<UploadFault>, acc: seq<(Id, Image)>, i: nat, k: nat, n: Id, at: nat)
    requires i == 0 && i < |files| && BatchLoop(s, user, files, pos, tripId, namer, fault, acc).reply.Done?
    requires k == |acc| + i && n == s.nextId + i && at == pos + i
    ensures k < |BatchLoop(s, user, files, pos, tripId, namer, fault, acc).reply.data|
    ensures BatchLoop(s, user, files, pos, tripId, namer, fault, acc).reply.data[k] == (n, BatchRecord(user, files[i], at, tripId, namer))
  {
    FirstRecord(s, user, files, pos, tripId, namer, fault, acc);
    PlusZero(|acc|, i, k);
    PlusZero(s.nextId, i, n);
    PlusZero(pos, i, at);
  }

  lemma PlusZero(x: int, i: int, y: int)
    requires i == 0 && y == x + i
    ensures y == x
  {
  }

  /** `d` lists at `k` the record for file `f` under key `n`, named for
      batch position `at`. */
  predicate ListedAt(d: seq<(Id, Image)>, k: nat, n: Id, user: Id, f: UploadFile, at: nat, tripId: Option<Id>, namer: Namer)
  {
    k < |d| && d[k] == (n, BatchRecord(user, f, at, tripId, namer))
  }

  /** BatchLoopRecordAt, restated through ListedAt. */
  lemma BatchLoopListedAt(s: Store, user: Id, files: seq<UploadFile>, pos: nat, tripId: Option<Id>, namer: Namer,
                          fault: Option<UploadFault>, acc: seq<(Id, Image)>, i: nat, k: nat, n: Id, at: nat)
    requires i < |files| && BatchLoop(s, user, files, pos, tripId, namer, fault, acc).reply.Done?
    requires k == |acc| + i && n == s.nextId + i && at == pos + i
    ensures ListedAt(BatchLoop(s, user, files, pos, tripId, namer, fault, acc).reply.data, k, n, user, files[i], at, tripId, namer)
  {
    BatchLoopRecordAt(s, user, files, pos, tripId, namer, fault, acc, i, k, n, at);
  }

  /** Every file of a successful loop is listed, for any names `k`, `n`,
      `at` of its index, key and batch position. */
  lemma BatchLoopListedAll(s: Store, user: Id, files: seq<UploadFile>, pos: nat, tripId: Option<Id>, namer: Namer,
                           fault: Option<UploadFault>, acc: seq<(Id, Image)>)
    requires BatchLoop(s, user, files, pos, tripId, namer, fault, acc).reply.Done?
    ensures forall i: nat, k: nat, n: Id, at: nat ::
              i < |files| && k == |acc| + i && n == s.nextId + i && at == pos + i ==>
                ListedAt(BatchLoop(s, user, files, pos, tripId, namer, fault, acc).reply.data, k, n, user, files[i], at, tripId, namer)
  {
    forall i: nat, k: nat, n: Id, at: nat | i < |files| && k == |acc| + i && n == s.nextId + i && at == pos + i
      ensures ListedAt(BatchLoop(s, user, files, pos, tripId, namer, fault, acc).reply.data, k, n, user, files[i], at, tripId, namer)
    {
      BatchLoopListedAt(s, user, files, pos, tripId, namer, fault, acc, i, k, n, at);
    }
  }

  /** BatchLoopListedAll with the index, key and position written out. */
  lemma BatchLoopListsEach(s: Store, user: Id, files: seq<UploadFile>, pos: nat, tripId: Option<Id>, namer: Namer,
                           fault: Option<UploadFault>, acc: seq<(Id, Image)>)
    requires BatchLoop(s, user, files, pos, tripId, namer, fault, acc).reply.Done?
    ensures forall i :: 0 <= i < |files| ==>
              ListedAt(BatchLoop(s, user, files, pos, tripId, namer, fault, acc).reply.data, |acc| + i, s.nextId + i, user, files[i], pos + i, tripId, namer)
  {
    BatchLoopListedAll(s, user, files, pos, tripId, namer, fault, acc);
  }

  /** A successful loop lists file `i` under key `s.nextId + i`, with the
      name generated for batch position `pos + i`. */
  lemma BatchLoopRecords(s: Store, user: Id, files: seq<UploadFile>, pos: nat, tripId: Option<Id>, namer: Namer,
                         fault: Option<UploadFault>, acc: seq<(Id, Image)>)
    requires BatchLoop(s, user, files, pos, tripId, namer, fault, acc).reply.Done?
    ensures |BatchLoop(s, user, files, pos, tripId, namer, fault, acc).reply.data| == |acc| + |files|
    ensures forall i :: 0 <= i < |files| ==>
              BatchLoop(s, user, files, pos, tripId, namer, fault, acc).reply.data[|acc| + i]
              == (s.nextId + i, BatchRecord(user, files[i], pos + i, tripId, namer))
  {
    BatchLoopPrefix(s, user, files, pos, tripId, namer, fault, acc);
    BatchLoopListsEach(s, user, files, pos, tripId, namer, fault, acc);
  }

  /** The loop of Upload from batch position `pos` on, with what it
      promises: it succeeds exactly when every file goes through, and then
      lists, after `acc`, file `i` under the fresh key `s.nextId + i` with
      the name and URL generated for position `pos + i`. */
  function UploadBatch(s: Store, user: Id, files: seq<UploadFile>, pos: nat, tripId: Option<Id>, namer: Namer,
                       fault: Option<UploadFault>, acc: seq<(Id, Image)>): (r: Answer<seq<(Id, Image)>>)
    ensures Extends(s, r.store, user, tripId, ImagesDir)
    ensures r.reply.Fail? ==> r.reply.status == BadRequest || r.reply.status == InternalError
    ensures (exists i :: 0 <= i < |files| && !IsValidImageType(files[i].contentType)) ==> r.reply.Fail?
    ensures r.reply.Done? <==> forall i :: 0 <= i < |files| ==> GoesThrough(files[i], pos + i, fault)
    ensures r.reply.Done? ==>
              && r.reply.status == Ok
              && |r.reply.data| == |acc| + |files|
              && r.reply.data[..|acc|] == acc
              && Lists(r.store, r.reply.data[|acc|..], files)
              && r.store.nextId == s.nextId + |files|
    ensures r.reply.Done? ==>
              forall i :: 0 <= i < |files| ==>
                r.reply.data[|acc| + i] == (s.nextId + i, BatchRecord(user, files[i], pos + i, tripId, namer))
  {
    BatchLoopExtends(s, user, files, pos, tripId, namer, fault, acc);
    BatchLoopSucceedsIff(s, user, files, pos, tripId, namer, fault, acc);
    AllGoThroughIff(files, pos, fault);
    BatchLoopLists(s, user, files, pos, tripId, namer, fault, acc);
    BatchLoopNextId(s, user, files, pos, tripId, namer, fault, acc);
    var r := BatchLoop(s, user, files, pos, tripId, namer, fault, acc);
    if r.reply.Done? then
      BatchLoopRecords(s, user, files, pos, tripId, namer, fault, acc);
      r
    else r
  }

  /** POST /images/upload: the caller, a parsable form with at least one
      file in `images`, the optional `trip_id`, the upload directory, then
      the files in order. `form` is None when the form does not parse. */
  function Upload(s: Store, who: Session, form: Option<seq<UploadFile>>, tripField: string, namer: Namer,
                  fault: Option<UploadFault>): (r: Answer<seq<(Id, Image)>>)
    ensures who.userId.None? ==> r.reply.status == Unauthorized && r.store == s
    ensures who.userId.Some? && (form.None? || form.value == []) ==> r.reply.status == BadRequest && r.store == s
    ensures who.userId.Some? ==> Extends(s, r.store, who.userId.value, FormTripId(tripField), ImagesDir)
    ensures r.reply.Done? ==> who.userId.Some? && form.Some? && form.value != [] && fault != Some(MkdirFails)
    ensures r.reply.Done? ==> r.reply.status == Ok && Lists(r.store, r.reply.data, form.value)
    ensures form.Some? && (exists i :: 0 <= i < |form.value| && !IsValidImageType(form.value[i].contentType)) ==> r.reply.Fail?
    ensures r.reply.Done? <==>
              && who.userId.Some? && form.Some? && form.value != [] && fault != Some(MkdirFails)
              && forall i :: 0 <= i < |form.value| ==>
                   IsValidImageType(form.value[i].contentType) && fault != Some(SaveFails(i)) && fault != Some(InsertFails(i))
    ensures r.reply.Done? ==>
              && r.store.nextId == s.nextId + |form.value|
              && RecordsFrom(r.reply.data, s.nextId, who.userId.value, form.value, FormTripId(tripField), namer)
  {
    if who.userId.None? then Answer(Fail(Unauthorized, "User not authenticated", ""), s)
    else if form.None? then Answer(Fail(BadRequest, "Failed to parse form", ""), s)
    else if form.value == [] then Answer(Fail(BadRequest, "No images provided", ""), s)
    else
      var tripId := FormTripId(tripField);
      if fault == Some(MkdirFails) then Answer(Fail(InternalError, "Failed to create upload directory", ""), s)
      else
        UploadAll(s, who.userId.value, form.value, tripId, namer, fault)
  }

  /** `items` lists file `i` of `files` at `i`, under the key `next + i`,
      with the name and URL generated for batch position `i`. */
  predicate RecordsFrom(items: seq<(Id, Image)>, next: Id, user: Id, files: seq<UploadFile>, tripId: Option<Id>, namer: Namer)
  {
    && |items| == |files|
    && forall i :: 0 <= i < |files| ==> items[i] == (next + i, BatchRecord(user, files[i], i, tripId, namer))
  }

  /** The whole batch, from position 0 with nothing listed yet. */
  function UploadAll(s: Store, user: Id, files: seq<UploadFile>, tripId: Option<Id>, namer: Namer,
                     fault: Option<UploadFault>): (r: Answer<seq<(Id, Image)>>)
    ensures Extends(s, r.store, user, tripId, ImagesDir)
    ensures r.reply.Fail? ==> r.reply.status == BadRequest || r.reply.status == InternalError
    ensures (exists i :: 0 <= i < |files| && !IsValidImageType(files[i].contentType)) ==> r.reply.Fail?
    ensures r.reply.Done? <==>
              forall i :: 0 <= i < |files| ==>
                IsValidImageType(files[i].contentType) && fault != Some(SaveFails(i)) && fault != Some(InsertFails(i))
    ensures r.reply.Done? ==> r.reply.status == Ok && Lists(r.store, r.reply.data, files)
    ensures r.reply.Done? ==>
              && r.store.nextId == s.nextId + |files|
              && RecordsFrom(r.reply.data, s.nextId, user, files, tripId, namer)
  {
    var r := UploadBatch(s, user, files, 0, tripId, namer, fault, []);
    assert r.reply.Done? ==> r.reply.data[0..] == r.reply.data;
    if r.reply.Done? then
      BatchFromStartRecords(s, user, files, tripId, namer, fault);
      r
    else r
  }

  /** BatchLoopListedAll for a batch from position 0 with nothing listed yet. */
  lemma BatchFromStartListed(s: Store, user: Id, files: seq<UploadFile>, tripId: Option<Id>, namer: Namer,
                             fault: Option<UploadFault>)
    requires BatchLoop(s, user, files, 0, tripId, namer, fault, []).reply.Done?
    ensures forall i :: 0 <= i < |files| ==>
              ListedAt(BatchLoop(s, user, files, 0, tripId, namer, fault, []).reply.data, i, s.nextId + i, user, files[i], i, tripId, namer)
  {
    BatchLoopListedAll(s, user, files, 0, tripId, namer, fault, []);
  }

  /** A successful batch from position 0 lists file `i` at `i`, under key
      `s.nextId + i`, with the name generated for position `i`. */
  lemma BatchFromStartRecords(s: Store, user: Id, files: seq<UploadFile>, tripId: Option<Id>, namer: Namer,
                              fault: Option<UploadFault>)
    requires BatchLoop(s, user, files, 0, tripId, namer, fault, []).reply.Done?
    ensures |BatchLoop(s, user, files, 0, tripId, namer, fault, []).reply.data| == |files|
    ensures forall i :: 0 <= i < |files| ==>
              BatchLoop(s, user, files, 0, tripId, namer, fault, []).reply.data[i]
              == (s.nextId + i, BatchRecord(user, files[i], i, tripId, namer))
  {
    BatchLoopPrefix(s, user, files, 0, tripId, namer, fault, []);
    BatchFromStartListed(s, user, files, tripId, namer, fault);
  }

  /** When file `k` of a batch has a type outside the whitelist, the upload
      answers 400 and leaves exactly what uploading the files before it
      leaves: the earlier files and records are not rolled back. */
  lemma RejectedFileKeepsEarlier(s: Store, user: Id, files: seq<UploadFile>, pos: nat, tripId: Option<Id>,
                                 namer: Namer, k: nat, acc: seq<(Id, Image)>)
    requires k < |files| && !IsValidImageType(files[k].contentType)
    ensures var r := UploadBatch(s, user, files, pos, tripId, namer, None, acc);
            && r.reply.Fail? && r.reply.status == BadRequest
            && r.store == UploadBatch(s, user, files[..k], pos, tripId, namer, None, acc).store
  {
    BatchLoopRejected(s, user, files, pos, tripId, namer, k, acc);
  }

  lemma {:induction false} BatchLoopRejected(s: Store, user: Id, files: seq<UploadFile>, pos: nat, tripId: Option<Id>,
                                             namer: Namer, k: nat, acc: seq<(Id, Image)>)
    requires k < |files| && !IsValidImageType(files[k].contentType)
    ensures var r := BatchLoop(s, user, files, pos, tripId, namer, None, acc);
            && r.reply.Fail? && r.reply.status == BadRequest
            && r.store == BatchLoop(s, user, files[..k], pos, tripId, namer, None, acc).store
    decreases k
  {
    if k == 0 {
      assert files[..k] == [];
    } else if IsValidImageType(files[0].contentType) {
      var p := PersistFirst(s, user, files, pos, tripId, namer, None);
      assert files[..k][0] == files[0];
      assert files[..k][1..] == files[1..][..k - 1];
      BatchLoopRejected(p.store, user, files[1..], pos + 1, tripId, namer, k - 1, acc + [(p.id, p.image)]);
      assert PersistFirst(s, user, files[..k], pos, tripId, namer, None) == p;
      assert BatchLoop(s, user, files, pos, tripId, namer, None, acc)
          == BatchLoop(p.store, user, files[1..], pos + 1, tripId, namer, None, acc + [(p.id, p.image)]);
      assert BatchLoop(s, user, files[..k], pos, tripId, namer, None, acc)
          == BatchLoop(p.store, user, files[..k][1..], pos + 1, tripId, namer, None, acc + [(p.id, p.image)]);
    } else {
      assert files[..k][0] == files[0];
    }
  }

  /** POST /images/upload-cover: one file in `cover_image`; `file` is None when the
      form has no such file. */
  function UploadCover(s: Store, who: Session, file: Option<UploadFile>, tripField: string, stamp: string, uuid: string,
                       fault: Option<UploadFault>): (r: Answer<(Id, Image)>)
    ensures who.userId.None? ==> r.reply.status == Unauthorized && r.store == s
    ensures who.userId.Some? && (file.None? || !IsValidImageType(file.value.contentType)) ==>
              r.reply.status == BadRequest && r.store == s
    ensures who.userId.Some? ==> Extends(s, r.store, who.userId.value, FormTripId(tripField), CoversDir)
    ensures r.reply.Done? <==>
              who.userId.Some? && file.Some? && IsValidImageType(file.value.contentType)
              && fault != Some(MkdirFails) && fault != Some(SaveFails(0)) && fault != Some(InsertFails(0))
    ensures r.reply.Done? ==>
              var name := StoredName(CoverPrefix, stamp, uuid, file.value.fileName);
              var img := Image(FormTripId(tripField), CoversUrlBase + name, name, file.value.fileName,
                               file.value.size, file.value.contentType, who.userId);
              && r.reply == Done(Ok, (s.nextId, img))
              && r.store == s.(images := s.images[s.nextId := img], files := s.files + {(CoversDir, name)}, nextId := s.nextId + 1)
  {
    if who.userId.None? then Answer(Fail(Unauthorized, "User not authenticated", ""), s)
    else if file.None? then Answer(Fail(BadRequest, "No cover image provided", ""), s)
    else if !IsValidImageType(file.value.contentType) then Answer(Fail(BadRequest, "Invalid file type", ""), s)
    else
      var tripId := FormTripId(tripField);
      if fault == Some(MkdirFails) then Answer(Fail(InternalError, "Failed to create upload directory", ""), s)
      else
        var name := StoredName(CoverPrefix, stamp, uuid, file.value.fileName);
        match Persist(s, who.userId.value, file.value, CoversDir, name, tripId,
                      fault == Some(SaveFails(0)), fault == Some(InsertFails(0)))
        case SaveFailed(t) => Answer(Fail(InternalError, "Failed to save file", ""), t)
        case InsertFailed(t) => Answer(Fail(InternalError, "Failed to save image record", ""), t)
        case Stored(t, id, img) => Answer(Done(Ok, (id, img)), t)
  }

  /** GET /images/:filename and GET /covers/:filename: the file must exist
      in the handler's directory; the Content-Type comes from the first
      record (by key, in any directory) with that file name, and from the
      extension when there is none. The data is the Content-Type sent. */
  function ServeFile(s: Store, dir: Dir, fileName: string, openFails: bool): (r: Answer<string>)
    ensures r.store == s
    ensures fileName == "" ==> r.reply.status == BadRequest
    ensures fileName != "" && (dir, fileName) !in s.files ==> r.reply.status == NotFound
    ensures r.reply.Done? <==> fileName != "" && (dir, fileName) in s.files && !openFails
    ensures r.reply.Done? && (forall k :: k in s.images ==> s.images[k].fileName != fileName) ==>
              r.reply.data == FallbackContentType(fileName)
    ensures r.reply.Done? && (exists k :: k in s.images && s.images[k].fileName == fileName) ==>
              exists k :: k in s.images && s.images[k].fileName == fileName && r.reply.data == s.images[k].mimeType
                && forall j :: j in s.images && j < k ==> s.images[j].fileName != fileName
  {
    if fileName == "" then Answer(Fail(BadRequest, "Filename is required", ""), s)
    else if (dir, fileName) !in s.files then
      Answer(Fail(NotFound, if dir == CoversDir then "Cover image not found" else "Image not found", ""), s)
    else if openFails then
      Answer(Fail(InternalError, if dir == CoversDir then "Failed to open cover image" else "Failed to open image", ""), s)
    else
      match First(s, s.images, (img: Image) => img.fileName == fileName)
      case Some(k) => Answer(Done(Ok, s.images[k].mimeType), s)
      case None => Answer(Done(Ok, FallbackContentType(fileName)), s)
  }

  /** GET /images/my-images */
  function GetMyImages(s: Store, who: Session, queryFails: bool): (r: Answer<map<Id, Image>>)
    ensures r.store == s
    ensures who.userId.None? ==> r.reply.status == Unauthorized
    ensures r.reply.Done? <==> who.userId.Some? && !queryFails
    ensures r.reply.Done? ==>
              forall k :: k in r.reply.data <==> k in s.images && s.images[k].uploadedBy == who.userId
    ensures r.reply.Done? ==> forall k :: k in r.reply.data ==> r.reply.data[k] == s.images[k]
  {
    if who.userId.None? then Answer(Fail(Unauthorized, "User not authenticated", ""), s)
    else if queryFails then Answer(Fail(InternalError, "Failed to fetch images", ""), s)
    else Answer(Done(Ok, map k | k in s.images && s.images[k].uploadedBy == who.userId :: s.images[k]), s)
  }

  /** GET /images/trip/:trip_id: the path segment must parse as a 32-bit
      decimal. */
  function GetImagesByTrip(s: Store, tripParam: string, queryFails: bool): (r: Answer<map<Id, Image>>)
    ensures r.store == s
    ensures ParseUint32(tripParam).None? ==> r.reply.status == BadRequest
    ensures r.reply.Done? <==> ParseUint32(tripParam).Some? && !queryFails
    ensures r.reply.Done? ==>
              forall k :: k in r.reply.data <==> k in s.images && s.images[k].tripId == ParseUint32(tripParam)
    ensures r.reply.Done? ==> forall k :: k in r.reply.data ==> r.reply.data[k] == s.images[k]
  {
    match ParseUint32(tripParam)
    case None => Answer(Fail(BadRequest, "Invalid trip ID", ""), s)
    case Some(n) =>
      if queryFails then Answer(Fail(InternalError, "Failed to fetch images", ""), s)
      else Answer(Done(Ok, map k | k in s.images && s.images[k].tripId == Some(n) :: s.images[k]), s)
  }

  /** The caller uploaded image `n`. */
  predicate OwnsImage(s: Db, who: Session, n: Id)
  {
    who.userId.Some? && n in s.images && s.images[n].uploadedBy == who.userId
  }

  /** DELETE /images/:id: only the uploader may delete, and anyone else gets
      the reply of a missing image. The file goes first (a file already
      missing is fine), then the record. */
  function DeleteImage(s: Store, who: Session, idParam: string, removeFails: bool, deleteFails: bool): (r: Answer<()>)
    ensures who.userId.None? ==> r.reply.status == Unauthorized && r.store == s
    ensures who.userId.Some? && ParseUint32(idParam).None? ==> r.reply.status == BadRequest && r.store == s
    ensures who.userId.Some? && ParseUint32(idParam).Some? && !OwnsImage(s, who, ParseUint32(idParam).value) ==>
              r.reply == Fail(NotFound, "Image not found or unauthorized", "") && r.store == s
    ensures r.reply.Done? <==>
              && who.userId.Some? && ParseUint32(idParam).Some? && OwnsImage(s, who, ParseUint32(idParam).value)
              && !((DirOf(s.images[ParseUint32(idParam).value].url), s.images[ParseUint32(idParam).value].fileName) in s.files && removeFails)
              && !deleteFails
    ensures r.reply.Done? ==> r.reply == Done(Ok, ())
    ensures r.reply.Done? ==>
              var n := ParseUint32(idParam).value;
              var img := s.images[n];
              r.store == s.(images := s.images - {n}, files := s.files - {(DirOf(img.url), img.fileName)})
  {
    if who.userId.None? then Answer(Fail(Unauthorized, "User not authenticated", ""), s)
    else
      match ParseUint32(idParam)
      case None => Answer(Fail(BadRequest, "Invalid image ID", ""), s)
      case Some(n) =>
        if !OwnsImage(s, who, n) then Answer(Fail(NotFound, "Image not found or unauthorized", ""), s)
        else
          var img := s.images[n];
          var f := (DirOf(img.url), img.fileName);
          if f in s.files && removeFails then Answer(Fail(InternalError, "Failed to delete file", ""), s)
          else
            var s1 := s.(files := s.files - {f});
            if deleteFails then Answer(Fail(InternalError, "Failed to delete image record", ""), s1)
            else Answer(Done(Ok, ()), s1.(images := s1.images - {n}))
  }

  /** The record a successful cover upload writes. */
  function CoverRecord(who: Session, file: UploadFile, tripField: string, stamp: string, uuid: string): (img: Image)
    ensures img.fileName == StoredName(CoverPrefix, stamp, uuid, file.fileName)
    ensures img.url == UrlFor(CoversDir, img.fileName)
    ensures img.uploadedBy == who.userId && img.mimeType == file.contentType
  {
    var name := StoredName(CoverPrefix, stamp, uuid, file.fileName);
    Image(FormTripId(tripField), CoversUrlBase + name, name, file.fileName, file.size, file.contentType, who.userId)
  }

  /** The store a successful upload of `img` into the covers directory leaves. */
  function WithCover(s: Store, img: Image): (t: Store)
    ensures s.nextId in t.images && t.images[s.nextId] == img
  {
    s.(images := s.images[s.nextId := img], files := s.files + {(CoversDir, img.fileName)}, nextId := s.nextId + 1)
  }

  lemma CoverUploadOutcome(s: Store, who: Session, file: UploadFile, tripField: string, stamp: string, uuid: string)
    requires who.userId.Some? && IsValidImageType(file.contentType)
    ensures var img := CoverRecord(who, file, tripField, stamp, uuid);
            UploadCover(s, who, Some(file), tripField, stamp, uuid, None) == Answer(Done(Ok, (s.nextId, img)), WithCover(s, img))
  {
  }

  /** Round trip: a cover uploaded and then deleted by its uploader,
      addressing it by its decimal key, leaves the store as it was apart
      from the spent key and the stored name in the covers directory (which
      a fresh name did not occupy before). */
  lemma CoverUploadThenDelete(s: Store, who: Session, file: UploadFile, tripField: string, stamp: string, uuid: string)
    requires who.userId.Some? && IsValidImageType(file.contentType)
    requires s.nextId <= MaxUint32
    requires '/' !in stamp && '/' !in uuid
    ensures var img := CoverRecord(who, file, tripField, stamp, uuid);
            && UploadCover(s, who, Some(file), tripField, stamp, uuid, None) == Answer(Done(Ok, (s.nextId, img)), WithCover(s, img))
            && DeleteImage(WithCover(s, img), who, FormatDecimal(s.nextId), false, false)
                 == Answer(Done(Ok, ()), s.(files := s.files - {(CoversDir, img.fileName)}, nextId := s.nextId + 1))
  {
    var img := CoverRecord(who, file, tripField, stamp, uuid);
    CoverUploadOutcome(s, who, file, tripField, stamp, uuid);
    assert '/' !in img.fileName by {
      PrefixesPlain();
      StoredNameFlat(CoverPrefix, stamp, uuid, file.fileName);
    }
    DeleteFreshCover(s, who, img);
  }

  lemma DeleteFreshCover(s: Store, who: Session, img: Image)
    requires who.userId.Some? && img.uploadedBy == who.userId
    requires img.url == UrlFor(CoversDir, img.fileName) && '/' !in img.fileName
    requires s.nextId <= MaxUint32
    ensures DeleteImage(WithCover(s, img), who, FormatDecimal(s.nextId), false, false)
              == Answer(Done(Ok, ()), s.(files := s.files - {(CoversDir, img.fileName)}, nextId := s.nextId + 1))
  {
    var t := WithCover(s, img);
    ParseFormatRoundTrip(s.nextId);
    DirOfUrlFor(CoversDir, img.fileName);
    assert OwnsImage(t, who, s.nextId);
    assert t.images - {s.nextId} == s.images;
    assert t.files - {(CoversDir, img.fileName)} == s.files - {(CoversDir, img.fileName)};
  }

  /** Round trip: right after a cover upload, serving its stored name sends
      the Content-Type the upload declared, provided no older record used
      that name. */
  lemma CoverUploadThenServe(s: Store, who: Session, file: UploadFile, tripField: string, stamp: string, uuid: string)
    requires who.userId.Some? && IsValidImageType(file.contentType)
    requires forall k :: k in s.images ==> s.images[k].fileName != StoredName(CoverPrefix, stamp, uuid, file.fileName)
    ensures var u := UploadCover(s, who, Some(file), tripField, stamp, uuid, None);
            ServeFile(u.store, CoversDir, StoredName(CoverPrefix, stamp, uuid, file.fileName), false).reply == Done(Ok, file.contentType)
  {
    CoverUploadOutcome(s, who, file, tripField, stamp, uuid);
    ServeFreshCover(s, CoverRecord(who, file, tripField, stamp, uuid));
  }

  lemma ServeFreshCover(s: Store, img: Image)
    requires |img.fileName| >= |CoverPrefix|
    requires forall k :: k in s.images ==> s.images[k].fileName != img.fileName
    ensures ServeFile(WithCover(s, img), CoversDir, img.fileName, false).reply == Done(Ok, img.mimeType)
  {
    var t := WithCover(s, img);
    var name := img.fileName;
    assert |CoverPrefix| > 0;
    var r := ServeFile(t, CoversDir, name, false);
    assert r.reply.Done?;
    var k :| k in t.images && t.images[k].fileName == name && r.reply.data == t.images[k].mimeType;
    assert k == s.nextId;
  }

  /** An uploaded cover is listed among its uploader's images and, when the
      form named a trip, among that trip's images. */
  lemma CoverUploadListed(s: Store, who: Session, file: UploadFile, tripField: string, stamp: string, uuid: string)
    requires who.userId.Some? && IsValidImageType(file.contentType)
    ensures var u := UploadCover(s, who, Some(file), tripField, stamp, uuid, None);
            && u.reply.Done?
            && u.reply.data.0 in GetMyImages(u.store, who, false).reply.data
            && (FormTripId(tripField).Some? ==>
                  u.reply.data.0 in GetImagesByTrip(u.store, FormatDecimal(FormTripId(tripField).value), false).reply.data)
  {
    CoverUploadOutcome(s, who, file, tripField, stamp, uuid);
    var img := CoverRecord(who, file, tripField, stamp, uuid);
    if FormTripId(tripField).Some? {
      ParseFormatRoundTrip(FormTripId(tripField).value);
    }
  }
}

=== FILE: models.dfy ===
/** The persisted entities (the files under models/) and the abstract database that the
    controllers read and write. Each table is a map from primary key to
    record; a soft-deleted row is simply absent. One counter hands out fresh
    keys above every key in use; a body may also name a key of its own. */
module Models {
  import opened Base

  /** models/user.go. `passwordHash` is the `Password` column, which is
      tagged `json:"-"` and therefore never read from or written to JSON. */
  datatype User = User(name: string, email: string, passwordHash: string, role: string)

  /** A trip waypoint (models.TripPoint); its own key and `TripID` are implied
      by its position in the owning trip. */
  datatype Point = Point(lat: real, lon: real)

  /** models/trip.go, with its many-to-many `Preferences` as a set of
      preference keys and its has-many `Points` as a sequence. Price and
      coordinates are only compared, never computed with. */
  datatype Trip = Trip(
    name: string,
    description: string,
    coverImage: string,
    price: real,
    duration: int,
    startLat: real,
    startLon: real,
    endLat: real,
    endLon: real,
    userId: Id,
    preferences: set<Id>,
    points: seq<Point>)

  /** models/preference.go: a tag whose name carries a unique index. */
  datatype Preference = Preference(name: string)

  /** models/preference.go: a join row; nothing makes the pair unique. */
  datatype UserPreference = UserPreference(userId: Id, preferenceId: Id)

  /** models/image.go */
  datatype Image = Image(
    tripId: Option<Id>,
    url: string,
    fileName: string,
    originalName: string,
    fileSize: int,
    mimeType: string,
    uploadedBy: Option<Id>)

  /** The two upload directories on disk. */
  datatype Dir = ImagesDir | CoversDir

  /** Every table, the join rows in insertion order, the set of files on disk
      and the next key the database will hand out. */
  datatype Db = Db(
    users: map<Id, User>,
    trips: map<Id, Trip>,
    preferences: map<Id, Preference>,
    userPreferences: seq<UserPreference>,
    images: map<Id, Image>,
    files: set<(Dir, string)>,
    nextId: Id)
  {
    /** Every key in use lies between 1 and the counter: auto-increment keys
        start at 1, so key 0 never names a row. */
    predicate Bounded()
    {
      && nextId >= 1
      && (forall k :: k in users ==> 0 < k < nextId)
      && (forall k :: k in trips ==> 0 < k < nextId)
      && (forall k :: k in preferences ==> 0 < k < nextId)
      && (forall k :: k in images ==> 0 < k < nextId)
    }
  }

  /** A database state reachable by the handlers: its counter is fresh. */
  type Store = d: Db | d.Bounded() witness Db(map[], map[], map[], [], map[], {}, 1)

  /** A handler's outcome: the reply it sends and the database it leaves. */
  datatype Answer<+T> = Answer(reply: Reply<T>, store: Store)

  function Max(a: nat, b: nat): nat
  {
    if a >= b then a else b
  }

  /** Where gorm puts a record whose primary key is `key`: `Create`, and
      `Save` of a record with a zero key, insert under the next key; `Save`
      of a live key updates that row; any other non-zero key is inserted as
      given. Which of these applies is what a decoded body's `id` decides. */
  datatype Target = Existing(key: Id) | Fresh(key: Id)

  /** The target of `Save` on table `m` of `s` for a record whose key is `key`. */
  function SaveTarget<T>(s: Store, m: map<Id, T>, key: Id): (t: Target)
    requires forall k :: k in m ==> 0 < k < s.nextId
    ensures t.Existing? <==> key in m
    ensures t.Existing? || t.key !in m
    ensures key != 0 ==> t.key == key
    ensures key == 0 ==> t.key == s.nextId
  {
    if key == 0 then Fresh(s.nextId)
    else if key in m then Existing(key)
    else Fresh(key)
  }

  /** The counter after a row went in under `key`. */
  function After(s: Store, key: Id): (n: Id)
    ensures n >= s.nextId && n > key
  {
    Max(s.nextId, key + 1)
  }

  /** The unique index on `users.email`. */
  predicate UniqueEmails(users: map<Id, User>)
  {
    forall a, b :: a in users && b in users && users[a].email == users[b].email ==> a == b
  }

  /** Some stored account has this email. */
  predicate EmailTaken(users: map<Id, User>, email: string)
  {
    exists k :: k in users && users[k].email == email
  }

  /** The unique index on `preferences.name`. */
  predicate UniqueNames(prefs: map<Id, Preference>)
  {
    forall a, b :: a in prefs && b in prefs && prefs[a].name == prefs[b].name ==> a == b
  }

  /** The keys `lo <= k < hi` of `m` whose record satisfies `p`, scanned in
      key order: the first hit is what gorm's `Where(..).First(..)` loads. */
  function FirstKey<T>(m: map<Id, T>, p: T -> bool, lo: nat, hi: nat): (r: Option<Id>)
    decreases hi - lo
    ensures r.Some? ==> lo <= r.value < hi && r.value in m && p(m[r.value])
    ensures r.Some? ==> forall k :: lo <= k < r.value && k in m ==> !p(m[k])
    ensures r.None? ==> forall k :: lo <= k < hi && k in m ==> !p(m[k])
  {
    if lo >= hi then None
    else if lo in m && p(m[lo]) then Some(lo)
    else FirstKey(m, p, lo + 1, hi)
  }

  /** `Where(p).First()` on a table of `s`: the smallest key whose record
      satisfies `p`, or None when no record does. */
  function First<T>(s: Store, m: map<Id, T>, p: T -> bool): (r: Option<Id>)
    requires forall k :: k in m ==> k < s.nextId
    ensures r.Some? ==> r.value in m && p(m[r.value])
    ensures r.Some? ==> forall k :: k in m && k < r.value ==> !p(m[k])
    ensures r.None? <==> forall k :: k in m ==> !p(m[k])
  {
    FirstKey(m, p, 0, s.nextId)
  }

  /** `Where("email = ?", email).First(&user)`: the first account holding
      `email`, None exactly when no account does. */
  function Holder(s: Store, email: string): (r: Option<Id>)
    ensures r.Some? ==> r.value in s.users && s.users[r.value].email == email
    ensures r.None? <==> !EmailTaken(s.users, email)
  {
    First(s, s.users, (u: User) => u.email == email)
  }

  /** Looking up an email in a table with unique emails finds the one holder. */
  lemma FirstEmailIsHolder(s: Store, email: string, id: Id)
    requires UniqueEmails(s.users)
    requires id in s.users && s.users[id].email == email
    ensures Holder(s, email) == Some(id)
  {
    var r := Holder(s, email);
    assert r.Some?;
  }
}

=== FILE: preferences.dfy ===
/** The preference controller (controllers/preference/preference.controller.go):
    catalog maintenance and the assignment of preferences to the caller. */
module Preferences {
  import opened Base
  import opened Models

  /** A decoded preference body: `id` and `name` are None when the body
      omits them. The `id` key lands in the embedded primary key, because
      encoding/json matches field names case-insensitively. */
  datatype PreferenceBody = PreferenceBody(id: Option<Id>, name: Option<string>)

  /** One element of an assignment body: the `ID` it carries (0 when absent)
      and its name. */
  datatype PrefSpec = PrefSpec(id: Id, name: string)

  /** The gorm calls of an assignment that can report an error for one element. */
  datatype AssignStep = InsertPreference | InsertJoinRow

  /** The failing call of an assignment, if any: call `call` of the element
      at position `index`. */
  datatype Fault = NoFault | FailAt(index: nat, call: AssignStep)

  /** Which key the join row gets when the element's name already exists:
      gorm leaves the element's own `ID` untouched when the insert is skipped
      (what the code does), whereas the existing row's key is what the
      upsert is meant to reuse. */
  datatype OnNameConflict = EchoRequestId | ReuseExistingId

  /** The outcome of `INSERT .. ON CONFLICT (name) DO NOTHING` for one element. */
  datatype InsertOutcome = Ignored(existing: Id) | Inserted(id: Id) | KeyClash

  /** Some live preference already carries `name`. */
  predicate NameTaken(prefs: map<Id, Preference>, name: string)
  {
    exists k :: k in prefs && prefs[k].name == name
  }

  /** The rows whose names a record saved at target `t` must differ from:
      all of them for an insert, all but the row itself for an update. */
  function Rivals(prefs: map<Id, Preference>, t: Target): map<Id, Preference>
  {
    if t.Existing? then prefs - {t.key} else prefs
  }

  /** GET /preferences */
  function GetAll(s: Store, queryFails: bool): (r: Answer<Listing<Preference>>)
    ensures r.store == s
    ensures r.reply.Done? <==> !queryFails
    ensures r.reply.Done? ==> r.reply.data.items == s.preferences && r.reply.data.count == |s.preferences|
    ensures r.reply.Fail? ==> r.reply.status == InternalError
  {
    if queryFails then
      Answer(Fail(InternalError, "Failed to retrieve preferences", "Could not fetch preferences from database"), s)
    else
      Answer(Done(Ok, Listing(s.preferences, |s.preferences|)), s)
  }

  /** GET /preferences/:id */
  function GetByID(s: Store, id: Id): (r: Answer<Preference>)
    ensures r.store == s
    ensures r.reply.Done? <==> id in s.preferences
    ensures r.reply.Done? ==> r.reply.data == s.preferences[id]
    ensures r.reply.Fail? ==> r.reply.status == NotFound
  {
    if id in s.preferences then Answer(Done(Ok, s.preferences[id]), s)
    else Answer(Fail(NotFound, "Preference not found", "The requested preference does not exist"), s)
  }

  /** POST /preferences: a plain insert of the decoded record, under the
      body's `id` when it gives a non-zero one and under the next key
      otherwise. The primary key refuses a live key and the unique name
      index a name already in use. */
  function Create(s: Store, body: Option<PreferenceBody>, insertFails: bool): (r: Answer<(Id, Preference)>)
    ensures r.reply.Fail? ==> r.store == s
    ensures body.None? ==> r.reply.status == BadRequest
    ensures body.Some? && NameTaken(s.preferences, body.value.name.GetOr("")) ==> r.reply.Fail?
    ensures r.reply.Done? <==>
              && body.Some? && !NameTaken(s.preferences, body.value.name.GetOr(""))
              && body.value.id.GetOr(0) !in s.preferences && !insertFails
    ensures r.reply.Done? ==>
              var key := r.reply.data.0;
              && r.reply.status == Created
              && key !in s.preferences
              && (body.value.id.GetOr(0) != 0 ==> key == body.value.id.value)
              && (body.value.id.GetOr(0) == 0 ==> key == s.nextId)
              && r.reply.data.1 == Preference(body.value.name.GetOr(""))
              && r.store == s.(preferences := s.preferences[key := r.reply.data.1], nextId := Max(s.nextId, key + 1))
  {
    if body.None? then
      Answer(Fail(BadRequest, "Invalid input", "Please provide valid preference data"), s)
    else
      var p := Preference(body.value.name.GetOr(""));
      var t := SaveTarget(s, s.preferences, body.value.id.GetOr(0));
      if t.Existing? || NameTaken(s.preferences, p.name) || insertFails then
        Answer(Fail(InternalError, "Failed to create preference", "Could not save preference to database"), s)
      else
        Answer(Done(Created, (t.key, p)), s.(preferences := s.preferences[t.key := p], nextId := After(s, t.key)))
  }

  /** PUT /preferences/:id: the body is decoded over the loaded record, so a
      field it omits keeps its stored value, and `Save` writes wherever the
      decoded key points: row `id` when the body has no `id`, another live
      row when it names one, and a new row otherwise (under the next key for
      `"id": 0`). Saving a name another row holds violates the unique index. */
  function Update(s: Store, id: Id, body: Option<PreferenceBody>, saveFails: bool): (r: Answer<(Id, Preference)>)
    ensures id !in s.preferences ==> r.reply.status == NotFound && r.store == s
    ensures id in s.preferences && body.None? ==> r.reply.status == BadRequest
    ensures r.reply.Fail? ==> r.store == s
    ensures r.reply.Done? <==>
              && id in s.preferences && body.Some? && !saveFails
              && !NameTaken(Rivals(s.preferences, SaveTarget(s, s.preferences, body.value.id.GetOr(id))),
                            body.value.name.GetOr(s.preferences[id].name))
    ensures r.reply.Done? ==>
              var (key, p) := r.reply.data;
              && r.reply.status == Ok
              && p == Preference(body.value.name.GetOr(s.preferences[id].name))
              && (body.value.id.None? ==> key == id)
              && (body.value.id.GetOr(0) != 0 ==> key == body.value.id.value)
              && (body.value.id == Some(0) ==> key == s.nextId)
              && (key in s.preferences ==> r.store == s.(preferences := s.preferences[key := p]))
              && (key !in s.preferences ==> r.store == s.(preferences := s.preferences[key := p], nextId := Max(s.nextId, key + 1)))
  {
    if id !in s.preferences then
      Answer(Fail(NotFound, "Preference not found", "The requested preference does not exist"), s)
    else if body.None? then
      Answer(Fail(BadRequest, "Invalid input", "Please provide valid preference data"), s)
    else
      var p := Preference(body.value.name.GetOr(s.preferences[id].name));
      var t := SaveTarget(s, s.preferences, body.value.id.GetOr(id));
      if NameTaken(Rivals(s.preferences, t), p.name) || saveFails then
        Answer(Fail(InternalError, "Failed to update preference", "Could not update preference in database"), s)
      else if t.Existing? then
        Answer(Done(Ok, (t.key, p)), s.(preferences := s.preferences[t.key := p]))
      else
        Answer(Done(Ok, (t.key, p)), s.(preferences := s.preferences[t.key := p], nextId := After(s, t.key)))
  }

  /** DELETE /preferences/:id: exactly the target row goes. */
  function Delete(s: Store, id: Id, removeFails: bool): (r: Answer<()>)
    ensures id !in s.preferences ==> r.reply.status == NotFound
    ensures r.reply.Fail? ==> r.store == s
    ensures r.reply.Done? <==> id in s.preferences && !removeFails
    ensures r.reply.Done? ==>
              && r.store == s.(preferences := s.preferences - {id})
              && forall k :: k in s.preferences && k != id ==> k in r.store.preferences && r.store.preferences[k] == s.preferences[k]
  {
    if id !in s.preferences then
      Answer(Fail(NotFound, "Preference not found", "The requested preference does not exist"), s)
    else if removeFails then
      Answer(Fail(InternalError, "Failed to delete preference", "Could not delete preference from database"), s)
    else
      Answer(Done(Ok, ()), s.(preferences := s.preferences - {id}))
  }

  /** A created preference reads back under its key and is listed, one
      more than before. */
  lemma CreateThenGet(s: Store, body: PreferenceBody)
    requires !NameTaken(s.preferences, body.name.GetOr("")) && body.id.GetOr(0) !in s.preferences
    ensures var c := Create(s, Some(body), false);
            && c.reply.Done?
            && GetByID(c.store, c.reply.data.0).reply == Done(Ok, c.reply.data.1)
            && GetAll(c.store, false).reply.data.count == |s.preferences| + 1
  {
    var c := Create(s, Some(body), false);
    assert c.store.preferences.Keys == s.preferences.Keys + {c.reply.data.0};
  }

  /** A body without `id` writes row `id` and no other; a body naming
      another live row overwrites that row and leaves row `id` as it was. */
  lemma UpdateWritesDecodedKey(s: Store, id: Id, other: Id, name: string)
    requires id in s.preferences && other in s.preferences && other != id
    requires !NameTaken(s.preferences - {other}, name) && !NameTaken(s.preferences - {id}, name)
    ensures var r := Update(s, id, Some(PreferenceBody(None, Some(name))), false);
            r.reply == Done(Ok, (id, Preference(name))) && r.store.preferences == s.preferences[id := Preference(name)]
    ensures var r := Update(s, id, Some(PreferenceBody(Some(other), Some(name))), false);
            && r.reply == Done(Ok, (other, Preference(name)))
            && r.store.preferences[id] == s.preferences[id]
            && r.store.preferences[other] == Preference(name)
  {
  }

  /** A deleted preference no longer reads back, and the listing shrinks by one. */
  lemma DeleteThenGet(s: Store, id: Id)
    requires id in s.preferences
    ensures var d := Delete(s, id, false);
            && GetByID(d.store, id).reply.status == NotFound
            && GetAll(d.store, false).reply.data.count == |s.preferences| - 1
  {
  }

  // ---------------------------------------------------------------------------
  // Assignment

  /** The insert-or-ignore on `name`: an existing name is left alone; a new
      name is stored under the element's own key when it carries one (which
      fails if that key is taken) and under a fresh key otherwise. */
  function InsertOrIgnore(s: Store, spec: PrefSpec): (o: InsertOutcome)
    ensures o.Ignored? <==> NameTaken(s.preferences, spec.name)
    ensures o.Ignored? ==> o.existing in s.preferences && s.preferences[o.existing].name == spec.name
    ensures o.Inserted? ==> o.id !in s.preferences
  {
    match First(s, s.preferences, (p: Preference) => p.name == spec.name)
    case Some(k) => Ignored(k)
    case None =>
      if spec.id != 0 && spec.id in s.preferences then KeyClash
      else if spec.id != 0 then Inserted(spec.id)
      else Inserted(s.nextId)
  }

  /** `t` differs from `s` only by preferences added under new keys and by
      join rows for `user` appended after the existing ones. */
  predicate Grows(s: Db, t: Db, user: Id)
  {
    && t.users == s.users && t.trips == s.trips && t.images == s.images && t.files == s.files
    && (forall k :: k in s.preferences ==> k in t.preferences && t.preferences[k] == s.preferences[k])
    && (UniqueNames(s.preferences) ==> UniqueNames(t.preferences))
    && |t.userPreferences| >= |s.userPreferences|
    && t.userPreferences[..|s.userPreferences|] == s.userPreferences
    && (forall i :: |s.userPreferences| <= i < |t.userPreferences| ==> t.userPreferences[i].userId == user)
  }

  lemma GrowsTransitive(a: Db, b: Db, c: Db, user: Id)
    requires Grows(a, b, user) && Grows(b, c, user)
    ensures Grows(a, c, user)
  {
    assert c.userPreferences[..|a.userPreferences|] == c.userPreferences[..|b.userPreferences|][..|a.userPreferences|];
  }

  /** Join row `idx` of `t` exists and names a live preference called `name`. */
  predicate RowNames(t: Db, idx: nat, name: string)
  {
    && idx < |t.userPreferences|
    && t.userPreferences[idx].preferenceId in t.preferences
    && t.preferences[t.userPreferences[idx].preferenceId].name == name
  }

  /** The join rows of `t` from index `from` on name, one by one, live
      preferences carrying the names of `specs`. */
  predicate RowsNameSpecs(t: Db, from: nat, specs: seq<PrefSpec>)
  {
    forall i :: 0 <= i < |specs| ==> RowNames(t, from + i, specs[i].name)
  }

  /** One element's outcome: it went through, or the request stops here. */
  datatype StepResult = Stepped(store: Store) | Stopped(reply: Reply<seq<PrefSpec>>, store: Store)

  /** The store once element `spec`'s insert-or-ignore went through: a new
      name is stored under its key, an existing one leaves the store alone. */
  function AfterInsert(s: Store, spec: PrefSpec): (t: Store)
    requires !InsertOrIgnore(s, spec).KeyClash?
    ensures t.userPreferences == s.userPreferences && t.users == s.users && t.trips == s.trips
    ensures t.images == s.images && t.files == s.files
    ensures forall k :: k in s.preferences ==> k in t.preferences && t.preferences[k] == s.preferences[k]
    ensures NameTaken(t.preferences, spec.name)
    ensures UniqueNames(s.preferences) ==> UniqueNames(t.preferences)
  {
    var o := InsertOrIgnore(s, spec);
    if o.Inserted? then
      var t := s.(preferences := s.preferences[o.id := Preference(spec.name)], nextId := After(s, o.id));
      assert t.preferences[o.id].name == spec.name;
      t
    else s
  }

  /** What a request whose element failed at `step` leaves of that element:
      its preference insert when the join row failed, nothing otherwise. */
  function Leftover(s: Store, spec: PrefSpec, step: AssignStep): Store
  {
    if step == InsertJoinRow && !InsertOrIgnore(s, spec).KeyClash? then AfterInsert(s, spec) else s
  }

  /** The key element `spec`'s join row carries. */
  function RowKey(s: Store, spec: PrefSpec, policy: OnNameConflict): Id
    requires !InsertOrIgnore(s, spec).KeyClash?
  {
    var o := InsertOrIgnore(s, spec);
    if o.Inserted? then o.id else if policy == ReuseExistingId then o.existing else spec.id
  }

  /** One element: the insert-or-ignore on its name, then its join row. The
      "already assigned" check before them builds a query that is never
      executed, so it can never refuse. A failing join row keeps the
      element's preference insert. */
  function Step(s: Store, user: Id, spec: PrefSpec, pos: nat, policy: OnNameConflict,
                fault: Fault): (r: StepResult)
    ensures Grows(s, r.store, user)
    ensures r.Stopped? ==> r.reply.Fail? && r.reply.status == InternalError
    ensures r.Stepped? ==> |r.store.userPreferences| == |s.userPreferences| + 1
    ensures r.Stepped? && policy == ReuseExistingId ==> RowNames(r.store, |s.userPreferences|, spec.name)
    ensures r.Stepped? && policy == EchoRequestId && NameTaken(s.preferences, spec.name) ==>
              r.store.userPreferences[|s.userPreferences|] == UserPreference(user, spec.id)
    ensures r.Stepped? <==> !InsertOrIgnore(s, spec).KeyClash? && fault != FailAt(pos, InsertPreference) && fault != FailAt(pos, InsertJoinRow)
    ensures r.Stopped? && fault == FailAt(pos, InsertJoinRow) ==> r.store == Leftover(s, spec, InsertJoinRow)
    ensures r.Stopped? && fault != FailAt(pos, InsertJoinRow) ==> r.store == s
  {
    var o := InsertOrIgnore(s, spec);
    if o.KeyClash? || fault == FailAt(pos, InsertPreference) then
      Stopped(Fail(InternalError, "Failed to assign preference", "Could not save preference to database"), s)
    else
      var s1 := AfterInsert(s, spec);
      if fault == FailAt(pos, InsertJoinRow) then
        Stopped(Fail(InternalError, "Failed to assign preference", "Could not save preference assignment to database"), s1)
      else
        var s2: Store := s1.(userPreferences := s1.userPreferences + [UserPreference(user, RowKey(s, spec, policy))]);
        assert s2.userPreferences[..|s.userPreferences|] == s.userPreferences;
        Stepped(s2)
  }

  /** Join rows `from + i` of `t` carry the elements' own `ID`s for every
      element whose name `catalog` already holds. */
  predicate RowsEchoTaken(t: Db, from: nat, specs: seq<PrefSpec>, catalog: map<Id, Preference>)
  {
    forall i :: 0 <= i < |specs| && NameTaken(catalog, specs[i].name) ==>
      from + i < |t.userPreferences| && t.userPreferences[from + i].preferenceId == specs[i].id
  }

  /** The elements from position `pos` on, one after another and with no
      transaction: each element's writes stay even when a later one fails,
      and every element adds one join row. */
  function Run(s: Store, user: Id, specs: seq<PrefSpec>, pos: nat, policy: OnNameConflict,
               fault: Fault, all: seq<PrefSpec>): (r: Answer<seq<PrefSpec>>)
    decreases |specs|
    ensures r.reply.Done? ==> r.reply == Done(Created, all)
    ensures r.reply.Fail? ==> r.reply.status == InternalError
    ensures Grows(s, r.store, user)
    ensures r.reply.Done? ==> |r.store.userPreferences| == |s.userPreferences| + |specs|
    ensures r.reply.Done? && policy == ReuseExistingId ==> RowsNameSpecs(r.store, |s.userPreferences|, specs)
    ensures r.reply.Done? && policy == EchoRequestId ==> RowsEchoTaken(r.store, |s.userPreferences|, specs, s.preferences)
  {
    if specs == [] then Answer(Done(Created, all), s)
    else
      match Step(s, user, specs[0], pos, policy, fault)
      case Stopped(reply, t) => Answer(reply, t)
      case Stepped(t) =>
        var r := Run(t, user, specs[1..], pos + 1, policy, fault, all);
        GrowsTransitive(s, t, r.store, user);
        RunKeepsFirstRow(s, t, r.store, user, specs, policy, r.reply.Done?);
        RunKeepsFirstEcho(s, t, r.store, user, specs, policy, r.reply.Done?);
        r
  }

  lemma RunKeepsFirstEcho(s: Store, t: Store, u: Store, user: Id, specs: seq<PrefSpec>, policy: OnNameConflict, done: bool)
    requires |specs| > 0
    requires Grows(s, t, user) && Grows(t, u, user)
    requires |t.userPreferences| == |s.userPreferences| + 1
    requires policy == EchoRequestId && NameTaken(s.preferences, specs[0].name) ==>
               t.userPreferences[|s.userPreferences|].preferenceId == specs[0].id
    requires done && policy == EchoRequestId ==> RowsEchoTaken(u, |t.userPreferences|, specs[1..], t.preferences)
    ensures done && policy == EchoRequestId ==> RowsEchoTaken(u, |s.userPreferences|, specs, s.preferences)
  {
    if done && policy == EchoRequestId {
      var n := |s.userPreferences|;
      assert u.userPreferences[n] == u.userPreferences[..|t.userPreferences|][n] == t.userPreferences[n];
      forall i | 0 <= i < |specs| && NameTaken(s.preferences, specs[i].name)
        ensures n + i < |u.userPreferences| && u.userPreferences[n + i].preferenceId == specs[i].id
      {
        if i > 0 {
          assert specs[1..][i - 1] == specs[i];
          var k :| k in s.preferences && s.preferences[k].name == specs[i].name;
          assert k in t.preferences && t.preferences[k].name == specs[i].name;
          assert n + 1 + (i - 1) == n + i;
        }
      }
    }
  }

  lemma RunKeepsFirstRow(s: Store, t: Store, u: Store, user: Id, specs: seq<PrefSpec>, policy: OnNameConflict, done: bool)
    requires |specs| > 0
    requires Grows(t, u, user)
    requires |t.userPreferences| == |s.userPreferences| + 1
    requires policy == ReuseExistingId ==> RowNames(t, |s.userPreferences|, specs[0].name)
    requires done && policy == ReuseExistingId ==> RowsNameSpecs(u, |t.userPreferences|, specs[1..])
    ensures done && policy == ReuseExistingId ==> RowsNameSpecs(u, |s.userPreferences|, specs)
  {
    if done && policy == ReuseExistingId {
      var n := |s.userPreferences|;
      assert u.userPreferences[n] == u.userPreferences[..|t.userPreferences|][n] == t.userPreferences[n];
      forall i | 0 <= i < |specs|
        ensures RowNames(u, n + i, specs[i].name)
      {
        if i > 0 {
          assert specs[1..][i - 1] == specs[i];
          assert RowNames(u, n + 1 + (i - 1), specs[1..][i - 1].name);
        }
      }
    }
  }

  /** Assigning `specs` in order from `s` reaches an element whose own key
      is already taken by a preference of another name, so its insert fails.
      Only the catalog matters: join rows never cause a clash. */
  predicate Clashes(s: Store, specs: seq<PrefSpec>)
    decreases |specs|
  {
    && specs != []
    && (InsertOrIgnore(s, specs[0]).KeyClash? || Clashes(AfterInsert(s, specs[0]), specs[1..]))
  }

  /** The scheduled failure falls on one of the `n` elements from position `pos`. */
  predicate FaultHits(fault: Fault, pos: nat, n: nat)
  {
    fault.FailAt? && pos <= fault.index < pos + n
  }

  /** A fault at position `pos` is one of the two calls of that element. */
  lemma FaultAt(fault: Fault, pos: nat)
    ensures (fault.FailAt? && fault.index == pos) <==> (fault == FailAt(pos, InsertPreference) || fault == FailAt(pos, InsertJoinRow))
  {
    match fault
    case NoFault =>
    case FailAt(i, c) =>
      match c
      case InsertPreference =>
      case InsertJoinRow =>
  }

  /** Whether an element clashes depends only on the catalog and the counter. */
  lemma {:induction false} ClashesSeesOnlyCatalog(a: Store, b: Store, specs: seq<PrefSpec>)
    requires a.preferences == b.preferences && a.nextId == b.nextId
    ensures Clashes(a, specs) <==> Clashes(b, specs)
    decreases |specs|
  {
    if specs != [] {
      assert InsertOrIgnore(a, specs[0]) == InsertOrIgnore(b, specs[0]);
      if !InsertOrIgnore(a, specs[0]).KeyClash? {
        ClashesSeesOnlyCatalog(AfterInsert(a, specs[0]), AfterInsert(b, specs[0]), specs[1..]);
      }
    }
  }

  /** Elements that carry no key of their own never clash. */
  lemma {:induction false} KeylessNeverClash(s: Store, specs: seq<PrefSpec>)
    requires forall i :: 0 <= i < |specs| ==> specs[i].id == 0
    ensures !Clashes(s, specs)
    decreases |specs|
  {
    if specs != [] {
      assert specs[0].id == 0;
      assert forall i :: 0 <= i < |specs[1..]| ==> specs[1..][i] == specs[i + 1];
      KeylessNeverClash(AfterInsert(s, specs[0]), specs[1..]);
    }
  }

  /** A run answers 201 exactly when no element clashes and no call of its
      elements fails. */
  lemma {:induction false} RunSucceedsIff(s: Store, user: Id, specs: seq<PrefSpec>, pos: nat, policy: OnNameConflict,
                                          fault: Fault, all: seq<PrefSpec>)
    ensures Run(s, user, specs, pos, policy, fault, all).reply.Done? <==> !Clashes(s, specs) && !FaultHits(fault, pos, |specs|)
    decreases |specs|
  {
    if specs != [] {
      var st := Step(s, user, specs[0], pos, policy, fault);
      FaultAt(fault, pos);
      if st.Stepped? {
        assert Run(s, user, specs, pos, policy, fault, all) == Run(st.store, user, specs[1..], pos + 1, policy, fault, all);
        RunSucceedsIff(st.store, user, specs[1..], pos + 1, policy, fault, all);
        ClashesSeesOnlyCatalog(st.store, AfterInsert(s, specs[0]), specs[1..]);
        assert FaultHits(fault, pos, |specs|) <==> FaultHits(fault, pos + 1, |specs| - 1);
      } else {
        assert Run(s, user, specs, pos, policy, fault, all).reply.Fail?;
        assert Clashes(s, specs) || FaultHits(fault, pos, |specs|);
      }
    }
  }

  /** POST /preferences/assign with the given conflict policy. */
  function AssignWith(s: Store, who: Session, body: Option<seq<PrefSpec>>, policy: OnNameConflict,
                      fault: Fault): (r: Answer<seq<PrefSpec>>)
    ensures who.userId.None? ==> r.reply.status == Unauthorized && r.store == s
    ensures who.userId.Some? && body.None? ==> r.reply.status == BadRequest && r.store == s
    ensures r.reply.status != Conflict
    ensures r.reply.Done? ==> who.userId.Some? && body.Some? && r.reply == Done(Created, body.value)
    ensures UniqueNames(s.preferences) ==> UniqueNames(r.store.preferences)
    ensures forall k :: k in s.preferences ==> k in r.store.preferences && r.store.preferences[k] == s.preferences[k]
    ensures who.userId.Some? ==> Grows(s, r.store, who.userId.value)
    ensures r.reply.Done? ==>
              && |r.store.userPreferences| == |s.userPreferences| + |body.value|
              && r.store.userPreferences[..|s.userPreferences|] == s.userPreferences
              && forall i :: |s.userPreferences| <= i < |r.store.userPreferences| ==>
                   r.store.userPreferences[i].userId == who.userId.value
    ensures r.reply.Done? && policy == ReuseExistingId ==> RowsNameSpecs(r.store, |s.userPreferences|, body.value)
    ensures r.reply.Done? && policy == EchoRequestId ==> RowsEchoTaken(r.store, |s.userPreferences|, body.value, s.preferences)
    ensures r.reply.Done? <==>
              who.userId.Some? && body.Some? && !Clashes(s, body.value) && !FaultHits(fault, 0, |body.value|)
  {
    if who.userId.None? then
      Answer(Fail(Unauthorized, "Authentication required", "User not authenticated"), s)
    else if body.None? then
      Answer(Fail(BadRequest, "Invalid input", "Please provide valid preference data"), s)
    else
      RunSucceedsIff(s, who.userId.value, body.value, 0, policy, fault, body.value);
      Run(s, who.userId.value, body.value, 0, policy, fault, body.value)
  }

  /** The assignment as the code behaves: for an element whose name already
      exists, the join row carries the element's own `ID`. */
  function AssignAsWritten(s: Store, who: Session, body: Option<seq<PrefSpec>>, fault: Fault): (r: Answer<seq<PrefSpec>>)
    ensures r.reply.Done? ==> body.Some? && |r.store.userPreferences| == |s.userPreferences| + |body.value|
    ensures who.userId.None? ==> r.reply.status == Unauthorized && r.store == s
    ensures who.userId.Some? ==> Grows(s, r.store, who.userId.value)
    ensures r.reply.Done? ==>
              forall i :: 0 <= i < |body.value| && NameTaken(s.preferences, body.value[i].name) ==>
                r.store.userPreferences[|s.userPreferences| + i] == UserPreference(who.userId.value, body.value[i].id)
  {
    AssignWith(s, who, body, EchoRequestId, fault)
  }

  /** The assignment as intended: an existing name's key is reused, so every
      join row it adds names a live preference carrying the element's name. */
  function Assign(s: Store, who: Session, body: Option<seq<PrefSpec>>, fault: Fault): (r: Answer<seq<PrefSpec>>)
    ensures who.userId.None? ==> r.reply.status == Unauthorized && r.store == s
    ensures who.userId.Some? ==> Grows(s, r.store, who.userId.value)
    ensures r.reply.Done? ==> who.userId.Some? && body.Some? && |r.store.userPreferences| == |s.userPreferences| + |body.value|
    ensures r.reply.Done? ==>
              forall i :: |s.userPreferences| <= i < |r.store.userPreferences| ==> r.store.userPreferences[i].userId == who.userId.value
    ensures r.reply.Done? ==>
              forall i :: 0 <= i < |body.value| ==> RowNames(r.store, |s.userPreferences| + i, body.value[i].name)
  {
    AssignWith(s, who, body, ReuseExistingId, fault)
  }

  /** No transaction: when element `k` fails, the database is what assigning
      the first `k` elements leaves, plus element `k`'s own preference
      insert when the failing call is its join row. */
  lemma {:induction false} FailureKeepsEarlierWrites(s: Store, user: Id, specs: seq<PrefSpec>, pos: nat, k: nat,
                                                     policy: OnNameConflict, step: AssignStep, fault: Fault,
                                                     all: seq<PrefSpec>, all': seq<PrefSpec>)
    requires k < |specs|
    requires fault == FailAt(pos + k, step)
    requires Run(s, user, specs[..k], pos, policy, NoFault, all').reply.Done?
    ensures Run(s, user, specs, pos, policy, fault, all).reply.Fail?
    ensures Run(s, user, specs, pos, policy, fault, all).store
              == Leftover(Run(s, user, specs[..k], pos, policy, NoFault, all').store, specs[k], step)
    decreases k
  {
    if k == 0 {
      assert specs[..k] == [];
      RunStops(s, user, specs, pos, policy, fault, all);
      assert Run(s, user, specs[..k], pos, policy, NoFault, all').store == s;
    } else {
      var t := Step(s, user, specs[0], pos, policy, NoFault);
      assert specs[..k][1..] == specs[1..][..k - 1];
      StepIgnoresOtherFaults(s, user, specs[0], pos, policy, fault);
      FailureKeepsEarlierWrites(t.store, user, specs[1..], pos + 1, k - 1, policy, step, fault, all, all');
      assert Run(s, user, specs, pos, policy, fault, all) == Run(t.store, user, specs[1..], pos + 1, policy, fault, all);
      assert specs[1..][k - 1] == specs[k];
    }
  }

  /** A run whose first element stops answers with that element's failure. */
  lemma RunStops(s: Store, user: Id, specs: seq<PrefSpec>, pos: nat, policy: OnNameConflict,
                 fault: Fault, all: seq<PrefSpec>)
    requires |specs| > 0 && fault.FailAt? && fault.index == pos
    ensures var st := Step(s, user, specs[0], pos, policy, fault);
            st.Stopped? && Run(s, user, specs, pos, policy, fault, all) == Answer(st.reply, st.store)
    ensures Run(s, user, specs, pos, policy, fault, all).store == Leftover(s, specs[0], fault.call)
  {
    assert fault == FailAt(pos, fault.call);
    if fault.call == InsertPreference {
      assert fault == FailAt(pos, InsertPreference);
    } else {
      assert fault == FailAt(pos, InsertJoinRow);
    }
  }

  /** A failure scheduled for another element does not affect this one. */
  lemma StepIgnoresOtherFaults(s: Store, user: Id, spec: PrefSpec, pos: nat, policy: OnNameConflict, fault: Fault)
    requires fault.NoFault? || fault.index != pos
    ensures Step(s, user, spec, pos, policy, fault) == Step(s, user, spec, pos, policy, NoFault)
  {
  }

  /** Re-assigning a name that is already in the catalog adds a second,
      identical join row and leaves the catalog as it was: nothing makes the
      (user, preference) pair unique. */
  lemma ReassignAddsAnotherRow(s: Store, who: Session, spec: PrefSpec, policy: OnNameConflict)
    requires who.userId.Some?
    requires NameTaken(s.preferences, spec.name)
    ensures var r1 := AssignWith(s, who, Some([spec]), policy, NoFault);
            var r2 := AssignWith(r1.store, who, Some([spec]), policy, NoFault);
            && r1.reply.Done? && r2.reply.Done?
            && r2.store.preferences == s.preferences
            && |r2.store.userPreferences| == |s.userPreferences| + 2
            && r2.store.userPreferences[|s.userPreferences|] == r2.store.userPreferences[|s.userPreferences| + 1]
  {
    var user := who.userId.value;
    AssignTakenOnce(s, who, spec, policy);
    var s1 := AssignWith(s, who, Some([spec]), policy, NoFault).store;
    assert InsertOrIgnore(s1, spec) == InsertOrIgnore(s, spec);
    AssignTakenOnce(s1, who, spec, policy);
  }

  /** Assigning one name already in the catalog appends exactly its join row. */
  lemma AssignTakenOnce(s: Store, who: Session, spec: PrefSpec, policy: OnNameConflict)
    requires who.userId.Some?
    requires NameTaken(s.preferences, spec.name)
    ensures !InsertOrIgnore(s, spec).KeyClash?
    ensures var r := AssignWith(s, who, Some([spec]), policy, NoFault);
            && r.reply.Done?
            && r.store == s.(userPreferences := s.userPreferences + [UserPreference(who.userId.value, RowKey(s, spec, policy))])
  {
    var user := who.userId.value;
    var s1: Store := s.(userPreferences := s.userPreferences + [UserPreference(user, RowKey(s, spec, policy))]);
    assert Step(s, user, spec, 0, policy, NoFault) == Stepped(s1);
    assert [spec][0] == spec && [spec][1..] == [];
    assert Run(s, user, [spec], 0, policy, NoFault, [spec]) == Run(s1, user, [], 1, policy, NoFault, [spec]);
  }

  /** The code as written: assigning an existing name without an `ID` adds a
      join row pointing at key 0, which no preference has. */
  lemma AsWrittenRowDangles()
    ensures var s: Store := Db(map[], map[], map[1 := Preference("Art")], [], map[], {}, 2);
            var r := AssignAsWritten(s, Session(Some(7), None), Some([PrefSpec(0, "Art")]), NoFault);
            && r.reply.Done?
            && r.store.userPreferences == [UserPreference(7, 0)]
            && 0 !in r.store.preferences
  {
    var s: Store := Db(map[], map[], map[1 := Preference("Art")], [], map[], {}, 2);
    assert s.preferences[1].name == "Art";
    AssignTakenOnce(s, Session(Some(7), None), PrefSpec(0, "Art"), EchoRequestId);
  }

  /** Every catalog operation keeps preference names unique. */
  lemma CatalogKeepsNamesUnique(s: Store, id: Id, body: Option<PreferenceBody>, failing: bool,
                                who: Session, specs: Option<seq<PrefSpec>>, fault: Fault)
    requires UniqueNames(s.preferences)
    ensures UniqueNames(Create(s, body, failing).store.preferences)
    ensures UniqueNames(Update(s, id, body, failing).store.preferences)
    ensures UniqueNames(Delete(s, id, failing).store.preferences)
    ensures UniqueNames(Assign(s, who, specs, fault).store.preferences)
    ensures UniqueNames(AssignAsWritten(s, who, specs, fault).store.preferences)
  {
    CreateKeepsNamesUnique(s, body, failing);
    UpdateKeepsNamesUnique(s, id, body, failing);
  }

  lemma CreateKeepsNamesUnique(s: Store, body: Option<PreferenceBody>, failing: bool)
    requires UniqueNames(s.preferences)
    ensures UniqueNames(Create(s, body, failing).store.preferences)
  {
    var c := Create(s, body, failing);
    if c.reply.Done? {
      var (key, p) := c.reply.data;
      assert !NameTaken(s.preferences, p.name);
      assert c.store.preferences == s.preferences[key := p];
    }
  }

  lemma UpdateKeepsNamesUnique(s: Store, id: Id, body: Option<PreferenceBody>, failing: bool)
    requires UniqueNames(s.preferences)
    ensures UniqueNames(Update(s, id, body, failing).store.preferences)
  {
    var u := Update(s, id, body, failing);
    if u.reply.Done? {
      var (key, p) := u.reply.data;
      var t := SaveTarget(s, s.preferences, body.value.id.GetOr(id));
      assert !NameTaken(Rivals(s.preferences, t), p.name);
      assert t.key == key;
      assert u.store.preferences == s.preferences[key := p];
      forall k | k in s.preferences && k != key
        ensures s.preferences[k].name != p.name
      {
        assert k in Rivals(s.preferences, t);
      }
    }
  }
}

=== FILE: seed.dfy ===
/** The deterministic part of the demo-trip importer in
    controllers/trip/trip.go: which fetched map elements become trips, and the
    name, coordinates, description, cover image and preference names each one
    gets. Random prices, durations and jittered points are not modelled. */
module Seed {
  import opened Base

  /** One element of the map-service reply: its own coordinates, an optional
      `center` (ways and relations), and its tags. */
  datatype Element = Element(lat: real, lon: real, center: Option<(real, real)>, tags: map<string, string>)

  /** The deterministic fields of one seeded trip (start and end both lie at
      `lat`/`lon`). */
  datatype SeedTrip = SeedTrip(
    name: string,
    description: string,
    coverImage: string,
    lat: real,
    lon: real,
    preferenceNames: seq<string>)

  /** At most this many elements are examined. */
  const SeedLimit: nat := 20

  /** Reading a Go map: a missing key yields "". */
  function Tag(tags: map<string, string>, key: string): string
  {
    if key in tags then tags[key] else ""
  }

  const CoverImages: map<string, string> := map[
    "museum" := "https://images.unsplash.com/photo-1566127992631-137a642a90f4?w=800",
    "theme_park" := "https://images.unsplash.com/photo-1544552866-d3ed42536cfd?w=800",
    "zoo" := "https://images.unsplash.com/photo-1564760055775-d63b17a55c44?w=800",
    "aquarium" := "https://images.unsplash.com/photo-1544551763-46a013bb70d5?w=800",
    "viewpoint" := "https://images.unsplash.com/photo-1477959858617-67f85cf4f1df?w=800",
    "gallery" := "https://images.unsplash.com/photo-1578662996442-48f60103fc96?w=800",
    "artwork" := "https://images.unsplash.com/photo-1578662996442-48f60103fc96?w=800",
    "attraction" := "https://images.unsplash.com/photo-1539650116574-75c0c6d73f6e?w=800"
  ]

  /** generateCoverImage: a total lookup that falls back to the attraction
      picture for a tourism type it does not list. */
  function CoverImageFor(kind: string): (url: string)
    ensures url in CoverImages.Values
    ensures kind in CoverImages ==> url == CoverImages[kind]
    ensures kind !in CoverImages ==> url == CoverImages["attraction"]
  {
    if kind in CoverImages then CoverImages[kind] else CoverImages["attraction"]
  }

  const PreferenceMap: map<string, seq<string>> := map[
    "attraction" := ["Sightseeing", "Photography", "Culture", "History"],
    "museum" := ["Education", "Culture", "History", "Art"],
    "viewpoint" := ["Photography", "Sightseeing", "Nature"],
    "gallery" := ["Art", "Culture", "Photography"],
    "theme_park" := ["Family", "Entertainment", "Adventure"],
    "zoo" := ["Family", "Education", "Nature"],
    "aquarium" := ["Family", "Education", "Marine Life"],
    "artwork" := ["Art", "Culture", "Photography"]
  ]

  /** The preference names attached to a tourism type; none for an unlisted one. */
  function PreferenceNamesFor(kind: string): (names: seq<string>)
    ensures kind !in PreferenceMap ==> names == []
    ensures kind in PreferenceMap ==> names == PreferenceMap[kind] && |names| >= 3
  {
    if kind in PreferenceMap then PreferenceMap[kind] else []
  }

  const Intro: string := "Explore this amazing attraction in Jakarta. "
  const Closing: string := "Perfect for photography and sightseeing!"

  /** generateDescription: the fixed opening, one sentence per non-empty
      address, website and phone tag, and the fixed closing. */
  function Description(tags: map<string, string>): (d: string)
    ensures |d| >= |Intro| + |Closing|
    ensures d[..|Intro|] == Intro
    ensures d[|d| - |Closing|..] == Closing
    ensures Tag(tags, "addr:full") == "" && Tag(tags, "website") == "" && Tag(tags, "phone") == "" ==>
              d == Intro + Closing
  {
    var addr := Tag(tags, "addr:full");
    var website := Tag(tags, "website");
    var phone := Tag(tags, "phone");
    var middle := (if addr != "" then "Located at " + addr + ". " else "")
                + (if website != "" then "Visit their website for more information. " else "")
                + (if phone != "" then "Contact: " + phone + ". " else "");
    assert (Intro + middle + Closing)[..|Intro|] == Intro;
    assert (Intro + middle + Closing)[|Intro| + |middle|..] == Closing;
    Intro + middle + Closing
  }

  /** The trip an element with a name becomes; a present `center` overrides
      the element's own coordinates. */
  function Candidate(e: Element): (c: SeedTrip)
    ensures c.name == Tag(e.tags, "name")
    ensures e.center.Some? ==> c.lat == e.center.value.0 && c.lon == e.center.value.1
    ensures e.center.None? ==> c.lat == e.lat && c.lon == e.lon
    ensures c.coverImage == CoverImageFor(Tag(e.tags, "tourism"))
    ensures c.preferenceNames == PreferenceNamesFor(Tag(e.tags, "tourism"))
  {
    var (lat, lon) := if e.center.Some? then e.center.value else (e.lat, e.lon);
    var kind := Tag(e.tags, "tourism");
    SeedTrip(Tag(e.tags, "name"), Description(e.tags), CoverImageFor(kind), lat, lon, PreferenceNamesFor(kind))
  }

  /** Reference definition: the candidates of the named elements, in order. */
  function Plan(els: seq<Element>): (plan: seq<SeedTrip>)
    ensures |plan| <= |els|
    ensures forall i :: 0 <= i < |plan| ==> plan[i].name != ""
    ensures forall i :: 0 <= i < |plan| ==> exists j :: 0 <= j < |els| && plan[i] == Candidate(els[j])
  {
    if els == [] then []
    else
      var e := els[|els| - 1];
      var rest := Plan(els[..|els| - 1]);
      var plan := rest + (if Tag(e.tags, "name") == "" then [] else [Candidate(e)]);
      assert forall i :: 0 <= i < |rest| ==> plan[i] == rest[i];
      plan
  }

  function Min(a: nat, b: nat): nat
  {
    if a <= b then a else b
  }

  /** The selection loop of SeedTrips: it stops at index 20 and skips
      elements without a name, which still use up their index. */
  method SelectSeeds(elements: seq<Element>) returns (plan: seq<SeedTrip>)
    ensures plan == Plan(elements[..Min(|elements|, SeedLimit)])
    ensures |plan| <= SeedLimit
    ensures forall i :: 0 <= i < |plan| ==> plan[i].name != ""
  {
    plan := [];
    var i := 0;
    while i < |elements|
      invariant 0 <= i <= |elements| && i <= SeedLimit
      invariant plan == Plan(elements[..i])
    {
      if i >= SeedLimit {
        break;
      }
      var e := elements[i];
      PlanStep(elements, i);
      if Tag(e.tags, "name") == "" {
        i := i + 1;
        continue;
      }
      plan := plan + [Candidate(e)];
      i := i + 1;
    }
  }

  /** Extending the examined prefix by one element extends the plan by that
      element's candidate, if it has a name. */
  lemma PlanStep(els: seq<Element>, i: nat)
    requires i < |els|
    ensures Plan(els[..i + 1]) ==
              Plan(els[..i]) + (if Tag(els[i].tags, "name") == "" then [] else [Candidate(els[i])])
  {
    assert els[..i + 1][..i] == els[..i];
  }

  /** Elements past the twentieth never matter, even when every one of the
      first twenty lacks a name. */
  lemma {:induction false} WindowIgnoresTail(a: seq<Element>, b: seq<Element>)
    requires |a| >= SeedLimit
    requires forall i :: 0 <= i < SeedLimit ==> Tag(a[i].tags, "name") == ""
    ensures Plan((a + b)[..Min(|a + b|, SeedLimit)]) == []
  {
    assert (a + b)[..SeedLimit] == a[..SeedLimit];
    AllNamelessPlanEmpty(a[..SeedLimit]);
  }

  lemma {:induction false} AllNamelessPlanEmpty(els: seq<Element>)
    requires forall i :: 0 <= i < |els| ==> Tag(els[i].tags, "name") == ""
    ensures Plan(els) == []
  {
    if els != [] {
      AllNamelessPlanEmpty(els[..|els| - 1]);
    }
  }
}

=== FILE: trips.dfy ===
/** The trip controller (controllers/trip/trip.go): listing with filters,
    lookup, creation by a trip owner, the owner-only transactional partial
    update and the owner-only delete. */
module Trips {
  import opened Base
  import opened Models

  /** CreateTripRequest after JSON decoding; a field missing from the body
      holds its Go zero value. */
  datatype CreateTripRequest = CreateTripRequest(
    name: string,
    description: string,
    coverImage: string,
    price: real,
    duration: int,
    startLat: real,
    startLon: real,
    endLat: real,
    endLon: real,
    preferenceIds: seq<Id>,
    points: seq<Point>)

  /** The binding tags of CreateTripRequest as gin's validator reads them:
      `required` refuses the zero value of its field ("" or 0) and `min=k`
      bounds it from below. */
  predicate CreateBindingOk(q: CreateTripRequest)
  {
    && q.name != ""
    && q.price != 0.0 && q.price >= 0.0
    && q.duration != 0 && q.duration >= 1
    && q.startLat != 0.0 && q.startLon != 0.0
    && q.endLat != 0.0 && q.endLon != 0.0
  }

  /** UpdateTripRequest: each scalar is a pointer (None when absent from the
      body) and each slice is None when absent or null, possibly empty when
      present. */
  datatype TripPatch = TripPatch(
    name: Option<string>,
    description: Option<string>,
    coverImage: Option<string>,
    price: Option<real>,
    duration: Option<int>,
    startLat: Option<real>,
    startLon: Option<real>,
    endLat: Option<real>,
    endLon: Option<real>,
    preferenceIds: Option<seq<Id>>,
    points: Option<seq<Point>>)

  /** The query-string filters of the list endpoint; None when the parameter
      is absent or empty. */
  datatype TripFilter = TripFilter(userId: Option<Id>, minPrice: Option<real>, maxPrice: Option<real>)

  /** The gorm calls of this controller that can report an error. A handler
      receives the call that fails, if any; calls it does not issue never fail. */
  datatype DbCall = Query | Insert | Remove | FindPreferences | Begin | Save | ReplacePreferences | ReplacePoints | Commit

  /** The outcome of the checks that guard a mutation of an existing trip. */
  datatype Decision = Allow | Missing | AuthRequired | RoleDenied | NotOwner

  /** Existence, then authentication, then role, then ownership. */
  function Authorize(trips: map<Id, Trip>, id: Id, who: Session): (d: Decision)
    ensures d == Allow <==> id in trips && HasRole(who, TripOwner) && who.userId == Some(trips[id].userId)
    ensures d == Missing <==> id !in trips
  {
    if id !in trips then Missing
    else if who.userId.None? then AuthRequired
    else if !HasRole(who, TripOwner) then RoleDenied
    else if trips[id].userId != who.userId.value then NotOwner
    else Allow
  }

  /** The two guarded mutations, which differ only in their messages. */
  datatype Mutation = Updating | Deleting

  /** The reply for a refused mutation. */
  function Refusal<T>(d: Decision, m: Mutation): Reply<T>
    requires d != Allow
  {
    match d
    case Missing => Fail(NotFound, "Trip not found", "The requested trip does not exist")
    case AuthRequired =>
      Fail(Unauthorized, "Authentication required",
           if m == Updating then "You must be logged in to update a trip" else "You must be logged in to delete a trip")
    case RoleDenied =>
      Fail(Forbidden, "Insufficient permissions",
           if m == Updating then "Only trip owners can update trips" else "Only trip owners can delete trips")
    case NotOwner =>
      Fail(Forbidden, "Access denied",
           if m == Updating then "You can only update your own trips" else "You can only delete your own trips")
  }

  /** `Find(&preferences, ids)`: the listed keys that exist; unknown keys are
      dropped, not reported. */
  function Resolve(ids: seq<Id>, catalog: map<Id, Preference>): (found: set<Id>)
    ensures found <= catalog.Keys
    ensures forall p :: p in found ==> p in ids
    ensures forall i :: 0 <= i < |ids| && ids[i] in catalog ==> ids[i] in found
  {
    set p | p in ids && p in catalog
  }

  /** All records of a table that satisfy `keep` (a `Where` clause). */
  function Where(m: map<Id, Trip>, keep: Trip -> bool): (w: map<Id, Trip>)
    ensures forall k :: k in w <==> k in m && keep(m[k])
    ensures forall k :: k in w ==> w[k] == m[k]
  {
    map k | k in m && keep(m[k]) :: m[k]
  }

  /** The list filter as a predicate: owner equality, inclusive price bounds,
      and no constraint from an absent parameter. */
  predicate Matches(f: TripFilter, t: Trip)
  {
    && (f.userId.Some? ==> t.userId == f.userId.value)
    && (f.minPrice.Some? ==> f.minPrice.value <= t.price)
    && (f.maxPrice.Some? ==> t.price <= f.maxPrice.value)
  }

  /** GET /trips: the query is narrowed by one `Where` per present filter. */
  function GetAll(s: Store, f: TripFilter, failing: Option<DbCall>): (r: Answer<Listing<Trip>>)
    ensures r.store == s
    ensures r.reply.Fail? <==> failing == Some(Query)
    ensures r.reply.Done? ==> r.reply.status == Ok && r.reply.data.count == |r.reply.data.items|
    ensures r.reply.Done? ==> forall k :: k in r.reply.data.items <==> k in s.trips && Matches(f, s.trips[k])
    ensures r.reply.Done? ==> forall k :: k in r.reply.data.items ==> r.reply.data.items[k] == s.trips[k]
  {
    var byOwner := if f.userId.Some? then (var u := f.userId.value; Where(s.trips, (t: Trip) => t.userId == u)) else s.trips;
    var byMin := if f.minPrice.Some? then (var lo := f.minPrice.value; Where(byOwner, (t: Trip) => lo <= t.price)) else byOwner;
    var byMax := if f.maxPrice.Some? then (var hi := f.maxPrice.value; Where(byMin, (t: Trip) => t.price <= hi)) else byMin;
    if failing == Some(Query) then
      Answer(Fail(InternalError, "Failed to retrieve trips", "Could not fetch trips from database"), s)
    else
      Answer(Done(Ok, Listing(byMax, |byMax|)), s)
  }

  /** GET /trips/:id, open to every caller. */
  function GetByID(s: Store, id: Id): (r: Answer<Trip>)
    ensures r.store == s
    ensures r.reply.Done? <==> id in s.trips
    ensures r.reply.Done? ==> r.reply == Done(Ok, s.trips[id])
    ensures r.reply.Fail? ==> r.reply.status == NotFound
  {
    if id in s.trips then Answer(Done(Ok, s.trips[id]), s)
    else Answer(Fail(NotFound, "Trip not found", "The requested trip does not exist"), s)
  }

  /** The request's scalar fields were copied into `t`. */
  predicate CopiesRequest(t: Trip, q: CreateTripRequest)
  {
    && t.name == q.name && t.description == q.description && t.coverImage == q.coverImage
    && t.price == q.price && t.duration == q.duration
    && t.startLat == q.startLat && t.startLon == q.startLon
    && t.endLat == q.endLat && t.endLon == q.endLon
  }

  /** POST /trips. Only an authenticated trip owner gets past the first two
      checks; the new trip belongs to the caller and carries those requested
      preferences that exist. gorm inserts the trip and its associations as
      one unit. */
  function Create(s: Store, who: Session, body: Option<CreateTripRequest>, failing: Option<DbCall>): (r: Answer<(Id, Trip)>)
    ensures who.userId.None? ==> r.reply.status == Unauthorized
    ensures who.userId.Some? && !HasRole(who, TripOwner) ==> r.reply.status == Forbidden
    ensures who.userId.Some? && HasRole(who, TripOwner) && (body.None? || !CreateBindingOk(body.value)) ==>
              r.reply.status == BadRequest
    ensures r.reply.Fail? ==> r.store == s
    ensures r.reply.Done? <==>
              && who.userId.Some? && HasRole(who, TripOwner)
              && body.Some? && CreateBindingOk(body.value)
              && failing != Some(Insert)
              && !(failing == Some(FindPreferences) && |body.value.preferenceIds| > 0)
    ensures r.reply.Done? ==>
              var (id, t) := r.reply.data;
              var q := body.value;
              && r.reply.status == Created
              && id !in s.trips
              && r.store == s.(trips := s.trips[id := t], nextId := s.nextId + 1)
              && t.userId == who.userId.value
              && CopiesRequest(t, q)
              && t.points == q.points
              && t.preferences <= s.preferences.Keys
              && (forall p :: p in t.preferences ==> p in q.preferenceIds)
              && (forall i :: 0 <= i < |q.preferenceIds| && q.preferenceIds[i] in s.preferences ==>
                    q.preferenceIds[i] in t.preferences)
  {
    if who.userId.None? then
      Answer(Fail(Unauthorized, "Authentication required", "You must be logged in to create a trip"), s)
    else if !HasRole(who, TripOwner) then
      Answer(Fail(Forbidden, "Insufficient permissions", "Only trip owners can create trips"), s)
    else if body.None? || !CreateBindingOk(body.value) then
      Answer(Fail(BadRequest, "Invalid request data", ""), s)
    else
      var q := body.value;
      if |q.preferenceIds| > 0 && failing == Some(FindPreferences) then
        Answer(Fail(BadRequest, "Invalid preference IDs", ""), s)
      else
        var prefs := if |q.preferenceIds| > 0 then Resolve(q.preferenceIds, s.preferences) else {};
        var t := Trip(q.name, q.description, q.coverImage, q.price, q.duration,
                      q.startLat, q.startLon, q.endLat, q.endLon,
                      who.userId.value, prefs, q.points);
        if failing == Some(Insert) then
          Answer(Fail(InternalError, "Failed to create trip", "Could not save trip to database"), s)
        else
          var id := s.nextId;
          Answer(Done(Created, (id, t)), s.(trips := s.trips[id := t], nextId := id + 1))
  }

  /** The scalar assignments of an update: a present field replaces the old
      value, an absent one keeps it; associations and owner are untouched. */
  function PatchScalars(t: Trip, p: TripPatch): (u: Trip)
    ensures u.userId == t.userId && u.preferences == t.preferences && u.points == t.points
  {
    t.(name := p.name.GetOr(t.name),
       description := p.description.GetOr(t.description),
       coverImage := p.coverImage.GetOr(t.coverImage),
       price := p.price.GetOr(t.price),
       duration := p.duration.GetOr(t.duration),
       startLat := p.startLat.GetOr(t.startLat),
       startLon := p.startLon.GetOr(t.startLon),
       endLat := p.endLat.GetOr(t.endLat),
       endLon := p.endLon.GetOr(t.endLon))
  }

  /** Whether an update with body `p` issues `call` (a call it skips cannot fail). */
  predicate Issues(p: TripPatch, call: DbCall)
  {
    match call
    case Begin => true
    case Save => true
    case FindPreferences => p.preferenceIds.Some? && |p.preferenceIds.value| > 0
    case ReplacePreferences => p.preferenceIds.Some?
    case ReplacePoints => p.points.Some?
    case Commit => true
    case _ => false
  }

  /** PUT /trips/:id. After the guards, every write goes to the transaction's
      working copy `tx`; a failing call drops it (rollback) and only a
      successful commit publishes it. */
  function Update(s: Store, who: Session, id: Id, body: Option<TripPatch>, failing: Option<DbCall>): (r: Answer<Trip>)
    ensures id !in s.trips ==> r.reply.status == NotFound
    ensures id in s.trips && who.userId.None? ==> r.reply.status == Unauthorized
    ensures id in s.trips && who.userId.Some? && !HasRole(who, TripOwner) ==>
              r.reply == Fail(Forbidden, "Insufficient permissions", "Only trip owners can update trips")
    ensures id in s.trips && who.userId.Some? && HasRole(who, TripOwner) && s.trips[id].userId != who.userId.value ==>
              r.reply == Fail(Forbidden, "Access denied", "You can only update your own trips")
    ensures Authorize(s.trips, id, who) == Allow && body.None? ==> r.reply.status == BadRequest
    ensures r.reply.Fail? ==> r.store == s
    ensures r.reply.Done? ==>
              && r.reply.status == Ok
              && id in s.trips && who.userId == Some(s.trips[id].userId)
              && r.reply.data.userId == s.trips[id].userId
              && r.store == s.(trips := s.trips[id := r.reply.data])
  {
    var d := Authorize(s.trips, id, who);
    if d != Allow then Answer(Refusal(d, Updating), s)
    else if body.None? then Answer(Fail(BadRequest, "Invalid request data", ""), s)
    else if failing == Some(Begin) then Answer(Fail(InternalError, "Failed to start transaction", ""), s)
    else
      var p := body.value;
      var patched := PatchScalars(s.trips[id], p);
      if failing == Some(Save) then
        Answer(Fail(InternalError, "Failed to update trip", "Could not save changes to database"), s)
      else if Issues(p, FindPreferences) && failing == Some(FindPreferences) then
        Answer(Fail(BadRequest, "Invalid preference IDs", ""), s)
      else
        var withPrefs :=
          if p.preferenceIds.Some? then
            patched.(preferences := if |p.preferenceIds.value| > 0 then Resolve(p.preferenceIds.value, s.preferences) else {})
          else patched;
        if p.preferenceIds.Some? && failing == Some(ReplacePreferences) then
          Answer(Fail(InternalError, "Failed to update preferences", ""), s)
        else
          var updated := if p.points.Some? then withPrefs.(points := p.points.value) else withPrefs;
          if p.points.Some? && failing == Some(ReplacePoints) then
            Answer(Fail(InternalError, "Failed to update points", ""), s)
          else if failing == Some(Commit) then
            Answer(Fail(InternalError, "Failed to commit transaction", ""), s)
          else
            Answer(Done(Ok, updated), s.(trips := s.trips[id := updated]))
  }

  /** An authorised update with a decodable body succeeds exactly when no
      call it issues fails. */
  lemma UpdateSucceedsUnlessIssuedCallFails(s: Store, who: Session, id: Id, body: Option<TripPatch>, failing: Option<DbCall>)
    ensures Update(s, who, id, body, failing).reply.Done? <==>
              Authorize(s.trips, id, who) == Allow && body.Some? && (failing.None? || !Issues(body.value, failing.value))
  {
  }

  /** DELETE /trips/:id: the same guards as Update, then the row goes. */
  function Delete(s: Store, who: Session, id: Id, failing: Option<DbCall>): (r: Answer<(Id, string)>)
    ensures id !in s.trips ==> r.reply.status == NotFound
    ensures id in s.trips && who.userId.None? ==> r.reply.status == Unauthorized
    ensures id in s.trips && who.userId.Some? && !HasRole(who, TripOwner) ==>
              r.reply == Fail(Forbidden, "Insufficient permissions", "Only trip owners can delete trips")
    ensures id in s.trips && who.userId.Some? && HasRole(who, TripOwner) && s.trips[id].userId != who.userId.value ==>
              r.reply == Fail(Forbidden, "Access denied", "You can only delete your own trips")
    ensures r.reply.Fail? ==> r.store == s
    ensures r.reply.Done? <==> Authorize(s.trips, id, who) == Allow && failing != Some(Remove)
    ensures r.reply.Done? ==>
              && r.reply == Done(Ok, (id, s.trips[id].name))
              && r.store == s.(trips := s.trips - {id})
  {
    var d := Authorize(s.trips, id, who);
    if d != Allow then Answer(Refusal(d, Deleting), s)
    else if failing == Some(Remove) then
      Answer(Fail(InternalError, "Failed to delete trip", "Could not remove trip from database"), s)
    else
      Answer(Done(Ok, (id, s.trips[id].name)), s.(trips := s.trips - {id}))
  }

  /** GET /trips/my-trips: an authenticated trip owner sees exactly the trips
      they own. */
  function GetMyTrips(s: Store, who: Session, failing: Option<DbCall>): (r: Answer<Listing<Trip>>)
    ensures r.store == s
    ensures who.userId.None? ==> r.reply.status == Unauthorized
    ensures who.userId.Some? && !HasRole(who, TripOwner) ==> r.reply.status == Forbidden
    ensures r.reply.Done? <==> who.userId.Some? && HasRole(who, TripOwner) && failing != Some(Query)
    ensures r.reply.Done? ==> r.reply.data.count == |r.reply.data.items|
    ensures r.reply.Done? ==>
              forall k :: k in r.reply.data.items <==> k in s.trips && s.trips[k].userId == who.userId.value
    ensures r.reply.Done? ==> forall k :: k in r.reply.data.items ==> r.reply.data.items[k] == s.trips[k]
  {
    if who.userId.None? then
      Answer(Fail(Unauthorized, "Authentication required", "You must be logged in to view your trips"), s)
    else if !HasRole(who, TripOwner) then
      Answer(Fail(Forbidden, "Insufficient permissions", "Only trip owners can view their trips"), s)
    else if failing == Some(Query) then
      Answer(Fail(InternalError, "Failed to retrieve trips", "Could not fetch your trips from database"), s)
    else
      var u := who.userId.value;
      var mine := Where(s.trips, (t: Trip) => t.userId == u);
      Answer(Done(Ok, Listing(mine, |mine|)), s)
  }

  // ---------------------------------------------------------------------------
  // Properties relating several calls

  /** A missing trip is reported as not found, identically, whatever the
      caller, body or storage behaviour: its absence leaks nothing else. */
  lemma MissingTripSameForAll(s: Store, id: Id, w1: Session, w2: Session,
                              b1: Option<TripPatch>, b2: Option<TripPatch>,
                              f1: Option<DbCall>, f2: Option<DbCall>)
    requires id !in s.trips
    ensures Update(s, w1, id, b1, f1) == Update(s, w2, id, b2, f2)
    ensures Delete(s, w1, id, f1) == Delete(s, w2, id, f2)
    ensures Update(s, w1, id, b1, f1).reply == Fail(NotFound, "Trip not found", "The requested trip does not exist")
  {
  }

  /** The patch equations of a successful update: each absent scalar keeps
      its old value, each present one (even "" or 0) replaces it; a present
      preference list replaces the set wholesale (empty clears it), an absent
      one keeps it; points likewise; owner never changes. */
  lemma UpdatePatchSemantics(s: Store, who: Session, id: Id, p: TripPatch, failing: Option<DbCall>)
    requires Update(s, who, id, Some(p), failing).reply.Done?
    ensures var old_ := s.trips[id];
            var t := Update(s, who, id, Some(p), failing).reply.data;
            && t.name == (if p.name.Some? then p.name.value else old_.name)
            && t.description == (if p.description.Some? then p.description.value else old_.description)
            && t.coverImage == (if p.coverImage.Some? then p.coverImage.value else old_.coverImage)
            && t.price == (if p.price.Some? then p.price.value else old_.price)
            && t.duration == (if p.duration.Some? then p.duration.value else old_.duration)
            && t.startLat == (if p.startLat.Some? then p.startLat.value else old_.startLat)
            && t.startLon == (if p.startLon.Some? then p.startLon.value else old_.startLon)
            && t.endLat == (if p.endLat.Some? then p.endLat.value else old_.endLat)
            && t.endLon == (if p.endLon.Some? then p.endLon.value else old_.endLon)
            && t.userId == old_.userId
            && (p.preferenceIds.None? ==> t.preferences == old_.preferences)
            && (p.preferenceIds.Some? ==> t.preferences == (set k | k in p.preferenceIds.value && k in s.preferences))
            && (p.preferenceIds == Some([]) ==> t.preferences == {})
            && (p.points.None? ==> t.points == old_.points)
            && (p.points.Some? ==> t.points == p.points.value)
  {
  }

  /** All or nothing: once the caller is authorised and the body decodes, the
      update commits exactly when none of the calls it issues fails, and a
      failure leaves the trip's fields, preferences and points as they were. */
  lemma UpdateAllOrNothing(s: Store, who: Session, id: Id, p: TripPatch, failing: Option<DbCall>)
    requires Authorize(s.trips, id, who) == Allow
    ensures var r := Update(s, who, id, Some(p), failing);
            && (r.reply.Done? <==> !(failing.Some? && Issues(p, failing.value)))
            && (r.reply.Fail? ==> r.store.trips[id] == s.trips[id] && r.store == s)
  {
  }

  /** The update path applies no binding checks, so an owner can store a
      negative price, which Create would refuse. */
  lemma UpdateSkipsValidation(s: Store, who: Session, id: Id)
    requires Authorize(s.trips, id, who) == Allow
    ensures var p := TripPatch(None, None, None, Some(-1.0), Some(0), None, None, None, None, None, None);
            var r := Update(s, who, id, Some(p), None);
            r.reply.Done? && r.reply.data.price < 0.0 && r.reply.data.duration == 0
  {
  }

  /** A created trip is then found under its new key. */
  lemma CreateThenGet(s: Store, who: Session, body: Option<CreateTripRequest>, failing: Option<DbCall>)
    requires Create(s, who, body, failing).reply.Done?
    ensures var r := Create(s, who, body, failing);
            GetByID(r.store, r.reply.data.0).reply == Done(Ok, r.reply.data.1)
  {
  }

  /** A created trip shows up in its creator's own list. */
  lemma CreateThenMine(s: Store, who: Session, body: Option<CreateTripRequest>)
    requires Create(s, who, body, None).reply.Done?
    ensures var r := Create(s, who, body, None);
            var mine := GetMyTrips(r.store, who, None);
            mine.reply.Done? && r.reply.data.0 in mine.reply.data.items
  {
  }

  /** A deleted trip is then not found, and every other trip is untouched. */
  lemma DeleteThenGet(s: Store, who: Session, id: Id, failing: Option<DbCall>, other: Id)
    requires Delete(s, who, id, failing).reply.Done?
    requires other != id
    ensures var r := Delete(s, who, id, failing);
            && GetByID(r.store, id).reply.status == NotFound
            && GetByID(r.store, other) == GetByID(s, other).(store := r.store)
  {
  }

  /** The caller's own list is the general list filtered on the caller. */
  lemma MyTripsIsOwnerFilter(s: Store, who: Session, failing: Option<DbCall>)
    requires who.userId.Some? && HasRole(who, TripOwner)
    ensures GetMyTrips(s, who, failing).reply.Done? <==> GetAll(s, TripFilter(who.userId, None, None), failing).reply.Done?
    ensures GetMyTrips(s, who, failing).reply.Done? ==>
              GetMyTrips(s, who, failing).reply == GetAll(s, TripFilter(who.userId, None, None), failing).reply
  {
  }
}

=== FILE: urls.dfy ===
/** The URL helpers of utils/url.go: the base URL a reply should use for
    links, taken from the BASE_URL environment variable when it is set and
    otherwise rebuilt from the request. The environment and the request are
    parameters. */
module Urls {
  import opened ImageNames

  /** What the helpers read from the request: whether it arrived over TLS,
      its X-Forwarded-Proto header ("" when absent) and its Host. */
  datatype Request = Request(tls: bool, forwardedProto: string, host: string)

  /** The scheme of a request: "http", raised to "https" over TLS, and in
      either case replaced by a non-empty X-Forwarded-Proto. */
  function Scheme(q: Request): (scheme: string)
    ensures q.forwardedProto != "" ==> scheme == q.forwardedProto
    ensures q.forwardedProto == "" ==> scheme == (if q.tls then "https" else "http")
    ensures scheme != ""
  {
    var scheme := if q.tls then "https" else "http";
    if q.forwardedProto != "" then q.forwardedProto else scheme
  }

  /** GetBaseURL: `env` is the value of BASE_URL ("" when unset). */
  function GetBaseURL(env: string, q: Request): (url: string)
    ensures env != "" ==> url == env
    ensures env == "" ==> |url| == |Scheme(q)| + 3 + |q.host|
    ensures env == "" ==> url[..|Scheme(q)|] == Scheme(q)
    ensures env == "" ==> url[|Scheme(q)|..|Scheme(q)| + 3] == "://"
    ensures env == "" ==> url[|Scheme(q)| + 3..] == q.host
  {
    if env != "" then env
    else
      var url := Scheme(q) + "://" + q.host;
      assert url[..|Scheme(q)|] == Scheme(q);
      assert url[|Scheme(q)|..|Scheme(q)| + 3] == "://";
      url
  }

  /** GetFullImageURL: the base URL followed by the image path. */
  function GetFullImageURL(env: string, q: Request, path: string): (url: string)
    ensures |url| == |GetBaseURL(env, q)| + |path|
    ensures url[..|GetBaseURL(env, q)|] == GetBaseURL(env, q)
    ensures url[|GetBaseURL(env, q)|..] == path
  {
    var base := GetBaseURL(env, q);
    var url := base + path;
    assert url[..|base|] == base;
    url
  }

  /** A set BASE_URL decides the base alone: the request does not matter. */
  lemma EnvOverridesRequest(env: string, q1: Request, q2: Request)
    requires env != ""
    ensures GetBaseURL(env, q1) == GetBaseURL(env, q2) == env
  {
  }

  /** With BASE_URL unset, a forwarded scheme wins over TLS: two requests
      that differ only in TLS get the same base. */
  lemma ForwardedProtoOverridesTls(q: Request)
    requires q.forwardedProto != ""
    ensures GetBaseURL("", q) == GetBaseURL("", q.(tls := !q.tls))
  {
    var a, b := GetBaseURL("", q), GetBaseURL("", q.(tls := !q.tls));
    assert |a| == |b|;
    forall i | 0 <= i < |a|
      ensures a[i] == b[i]
    {
      var n := |q.forwardedProto|;
      if i < n {
        assert a[i] == a[..n][i] == b[..n][i] == b[i];
      } else if i < n + 3 {
        assert a[i] == a[n..n + 3][i - n] == b[n..n + 3][i - n] == b[i];
      } else {
        assert a[i] == a[n + 3..][i - n - 3] == b[n + 3..][i - n - 3] == b[i];
      }
    }
  }

  /** Splitting a fallback base at its first "://" gives back the scheme and
      the host, provided the scheme holds no ':'. */
  lemma FallbackBaseSplits(q: Request, q': Request)
    requires ':' !in Scheme(q) && ':' !in Scheme(q')
    requires GetBaseURL("", q) == GetBaseURL("", q')
    ensures Scheme(q) == Scheme(q') && q.host == q'.host
  {
    var u := GetBaseURL("", q);
    FirstColonEndsScheme(q);
    FirstColonEndsScheme(q');
    var n := |Scheme(q)|;
    assert Scheme(q) == u[..n] && Scheme(q') == u[..n];
    assert q.host == u[n + 3..] && q'.host == u[n + 3..];
  }

  /** In a fallback base, the first ':' is the one that ends the scheme. */
  lemma FirstColonEndsScheme(q: Request)
    requires ':' !in Scheme(q)
    ensures var u := GetBaseURL("", q);
            && u[|Scheme(q)|] == ':'
            && forall i :: 0 <= i < |Scheme(q)| ==> u[i] != ':'
  {
    var u := GetBaseURL("", q);
    var n := |Scheme(q)|;
    assert u[n] == u[n..n + 3][0];
    forall i | 0 <= i < n
      ensures u[i] != ':'
    {
      assert u[i] == u[..n][i] == Scheme(q)[i];
    }
  }

  /** The fallback base of a plain-HTTP request to localhost:8080. */
  lemma LocalFallbackBase()
    ensures GetBaseURL("", Request(false, "", "localhost:8080")) == "http://localhost:8080"
  {
    assert Scheme(Request(false, "", "localhost:8080")) == "http";
  }

  /** A link whose path starts with `prefix`, built for a plain-HTTP request
      to localhost:8080, is `base` followed by the rest of the path when
      `base` is the fallback base followed by `prefix`. */
  lemma LocalLink(prefix: string, base: string, name: string)
    requires "http://localhost:8080" + prefix == base
    ensures GetFullImageURL("", Request(false, "", "localhost:8080"), prefix + name) == base + name
  {
    var host: string := "http://localhost:8080";
    LocalFallbackBase();
    assert host + (prefix + name) == (host + prefix) + name;
  }

  /** The upload handlers write image links under a fixed base; it is the
      base GetFullImageURL yields for a plain-HTTP request to
      localhost:8080 with BASE_URL unset. */
  lemma FixedBasesAreLocalFallback(name: string)
    ensures GetFullImageURL("", Request(false, "", "localhost:8080"), "/api/v1/images/" + name) == ImagesUrlBase + name
    ensures GetFullImageURL("", Request(false, "", "localhost:8080"), "/api/v1/covers/" + name) == CoversUrlBase + name
  {
    LocalLink("/api/v1/images/", ImagesUrlBase, name);
    LocalLink("/api/v1/covers/", CoversUrlBase, name);
  }
}

=== FILE: users.dfy ===
/** The administrative user controller (controllers/user/user.go). Its
    create, update and delete handlers ignore the error of the database call,
    so the reply can claim a success the database refused. */
module Users {
  import opened Base
  import opened Models

  /** A user body after JSON decoding onto a record: a field present in the
      body is Some. The password column is never read from JSON; the `id`
      key lands in the embedded primary key, because encoding/json matches
      field names case-insensitively. */
  datatype UserBody = UserBody(id: Option<Id>, name: Option<string>, email: Option<string>, role: Option<string>)

  /** The value the `role` column takes when an insert leaves it empty. */
  const DefaultRole: string := "user"

  /** Decoding `b` onto `u`: present fields replace, absent ones stay. The
      body's `id` is not part of the record; it decides where the record is
      saved. */
  function Merge(u: User, b: UserBody): (m: User)
    ensures m.passwordHash == u.passwordHash
    ensures m.name == b.name.GetOr(u.name) && m.email == b.email.GetOr(u.email) && m.role == b.role.GetOr(u.role)
  {
    User(b.name.GetOr(u.name), b.email.GetOr(u.email), u.passwordHash, b.role.GetOr(u.role))
  }

  /** gorm's create writes the column default into an empty `role` before the
      INSERT runs, so the record carries it whether or not the insert
      succeeds. */
  function WithDefaultRole(u: User): (d: User)
    ensures d.name == u.name && d.email == u.email && d.passwordHash == u.passwordHash
    ensures u.role == "" ==> d.role == DefaultRole
    ensures u.role != "" ==> d.role == u.role
  {
    if u.role == "" then u.(role := DefaultRole) else u
  }

  /** GET /users: the error of the query is dropped, so a failing query
      answers 200 with no users. */
  function GetAll(s: Store, queryFails: bool): (r: Answer<map<Id, User>>)
    ensures r.store == s
    ensures r.reply.Done? && r.reply.status == Ok
    ensures !queryFails ==> r.reply.data == s.users
    ensures queryFails ==> r.reply.data == map[]
  {
    Answer(Done(Ok, if queryFails then map[] else s.users), s)
  }

  /** GET /users/:id */
  function GetByID(s: Store, id: Id): (r: Answer<User>)
    ensures r.store == s
    ensures r.reply.Done? <==> id in s.users
    ensures r.reply.Done? ==> r.reply.data == s.users[id]
    ensures r.reply.Fail? ==> r.reply.status == NotFound
  {
    if id in s.users then Answer(Done(Ok, s.users[id]), s)
    else Answer(Fail(NotFound, "User not found", ""), s)
  }

  /** POST /users: only a body that does not decode is refused. The record
      goes in under the body's `id` when it gives a non-zero one and under
      the next key otherwise. The insert's error is ignored: a live key, an
      email already in use or a failing database leaves the table as it was,
      yet the reply is still 201, carrying the decoded record and the key it
      held (0 when the body gave none). The stored record has an empty
      password hash and the default role when none was given. */
  function Create(s: Store, body: Option<UserBody>, insertFails: bool): (r: Answer<(Id, User)>)
    ensures body.None? <==> r.reply.Fail?
    ensures r.reply.Fail? ==> r.reply.status == BadRequest && r.store == s
    ensures r.reply.Done? ==>
              var u := r.reply.data.1;
              && r.reply.status == Created
              && u.passwordHash == ""
              && u.name == body.value.name.GetOr("")
              && u.email == body.value.email.GetOr("")
              && (body.value.role.GetOr("") == "" ==> u.role == DefaultRole)
              && (body.value.role.GetOr("") != "" ==> u.role == body.value.role.value)
    ensures body.Some? && (insertFails || body.value.id.GetOr(0) in s.users || EmailTaken(s.users, body.value.email.GetOr(""))) ==>
              r.store == s && r.reply.data.0 == body.value.id.GetOr(0)
    ensures body.Some? && !insertFails && body.value.id.GetOr(0) !in s.users && !EmailTaken(s.users, body.value.email.GetOr("")) ==>
              var key := r.reply.data.0;
              && key !in s.users
              && (body.value.id.GetOr(0) != 0 ==> key == body.value.id.value)
              && (body.value.id.GetOr(0) == 0 ==> key == s.nextId)
              && r.store == s.(users := s.users[key := r.reply.data.1], nextId := Max(s.nextId, key + 1))
    ensures UniqueEmails(s.users) ==> UniqueEmails(r.store.users)
  {
    if body.None? then
      Answer(Fail(BadRequest, "Invalid request body", ""), s)
    else
      var u := WithDefaultRole(Merge(User("", "", "", ""), body.value));
      var key := body.value.id.GetOr(0);
      var t := SaveTarget(s, s.users, key);
      if insertFails || t.Existing? || EmailTaken(s.users, u.email) then
        Answer(Done(Created, (key, u)), s)
      else
        Answer(Done(Created, (t.key, u)), s.(users := s.users[t.key := u], nextId := After(s, t.key)))
  }

  /** PUT /users/:id as the code behaves: the body is decoded over the loaded
      record and `Save` writes wherever the decoded key points. Without an
      `id` that is row `id`; with the key of another live row, that row is
      overwritten with row `id`'s record, password hash included; with any
      other key the update finds no row and gorm falls back to an insert
      (under the next key for `"id": 0`), which gives an empty role the
      default. The save's error is ignored: an email held by another row or
      a failing database leaves the table as it was, yet the reply is 200
      with the decoded record. */
  function UpdateAsWritten(s: Store, id: Id, body: Option<UserBody>, saveFails: bool): (r: Answer<(Id, User)>)
    ensures id !in s.users ==> r.reply.status == NotFound && r.store == s
    ensures r.reply.Done? <==> id in s.users && body.Some?
    ensures r.reply.Fail? ==> r.store == s
    ensures r.reply.Done? ==> r.reply.status == Ok
    ensures r.reply.Done? && body.value.id.None? ==> r.reply.data == (id, Merge(s.users[id], body.value))
    ensures r.reply.Done? && body.value.id.GetOr(0) != 0 ==> r.reply.data.0 == body.value.id.value
    ensures r.reply.Done? ==> r.reply.data.1.passwordHash == s.users[id].passwordHash
    ensures r.reply.Done? && r.store != s ==>
              var (key, u) := r.reply.data;
              && key in r.store.users && r.store.users[key] == u
              && forall k :: k in s.users && k != key ==> k in r.store.users && r.store.users[k] == s.users[k]
    ensures r.reply.Done? && r.store != s ==>
              r.store == s.(users := s.users[r.reply.data.0 := r.reply.data.1], nextId := After(s, r.reply.data.0))
    ensures UniqueEmails(s.users) ==> UniqueEmails(r.store.users)
  {
    if id !in s.users then
      Answer(Fail(NotFound, "User not found", ""), s)
    else if body.None? then
      Answer(Fail(BadRequest, "Invalid request body", ""), s)
    else
      var m := Merge(s.users[id], body.value);
      var key := body.value.id.GetOr(id);
      match SaveTarget(s, s.users, key)
      case Existing(k) =>
        if saveFails || EmailTaken(s.users - {k}, m.email) then Answer(Done(Ok, (k, m)), s)
        else
          ReplaceKeepsEmailsUnique(s.users, k, m);
          Answer(Done(Ok, (k, m)), s.(users := s.users[k := m]))
      case Fresh(k) =>
        var d := WithDefaultRole(m);
        if saveFails then Answer(Done(Ok, (key, m)), s)
        else if EmailTaken(s.users, d.email) then Answer(Done(Ok, (key, d)), s)
        else
          ReplaceKeepsEmailsUnique(s.users, k, d);
          Answer(Done(Ok, (k, d)), s.(users := s.users[k := d], nextId := After(s, k)))
  }

  /** PUT /users/:id as intended: the decoded record is saved to row `id`
      whatever `id` the body carries. The save's error is ignored as in the
      code. */
  function Update(s: Store, id: Id, body: Option<UserBody>, saveFails: bool): (r: Answer<(Id, User)>)
    ensures id !in s.users ==> r.reply.status == NotFound && r.store == s
    ensures r.reply.Done? <==> id in s.users && body.Some?
    ensures r.reply.Fail? ==> r.store == s
    ensures r.reply.Done? ==> r.reply.status == Ok && r.reply.data == (id, Merge(s.users[id], body.value))
    ensures r.reply.Done? && !saveFails && !EmailTaken(s.users - {id}, r.reply.data.1.email) ==>
              r.store == s.(users := s.users[id := r.reply.data.1])
    ensures r.reply.Done? && (saveFails || EmailTaken(s.users - {id}, r.reply.data.1.email)) ==> r.store == s
    ensures forall k :: k in s.users ==> k in r.store.users && r.store.users[k].passwordHash == s.users[k].passwordHash
    ensures UniqueEmails(s.users) ==> UniqueEmails(r.store.users)
  {
    if id !in s.users then
      Answer(Fail(NotFound, "User not found", ""), s)
    else if body.None? then
      Answer(Fail(BadRequest, "Invalid request body", ""), s)
    else
      var u := Merge(s.users[id], body.value);
      if saveFails || EmailTaken(s.users - {id}, u.email) then Answer(Done(Ok, (id, u)), s)
      else
        ReplaceKeepsEmailsUnique(s.users, id, u);
        Answer(Done(Ok, (id, u)), s.(users := s.users[id := u]))
  }

  /** The two agree whenever the body carries no `id` or the path's own. */
  lemma UpdateAgreesWithoutForeignId(s: Store, id: Id, body: UserBody, saveFails: bool)
    requires body.id.None? || body.id == Some(id)
    ensures UpdateAsWritten(s, id, Some(body), saveFails) == Update(s, id, Some(body), saveFails)
  {
  }

  /** As written, any caller of PUT /users/:id who names another account's
      key in the body, with that account's own email, overwrites that
      account with the record of row `id`: its password hash becomes row
      `id`'s, so row `id`'s password now logs in to it. Row `id` is left as
      it was. */
  lemma BodyIdCopiesHash(s: Store, id: Id, victim: Id)
    requires UniqueEmails(s.users)
    requires id in s.users && victim in s.users && id != victim
    ensures var r := UpdateAsWritten(s, id, Some(UserBody(Some(victim), None, Some(s.users[victim].email), None)), false);
            && r.reply.Done? && r.reply.data.0 == victim
            && r.store.users[victim].passwordHash == s.users[id].passwordHash
            && r.store.users[victim].email == s.users[victim].email
            && r.store.users[id] == s.users[id]
  {
    var e := s.users[victim].email;
    forall k | k in s.users - {victim}
      ensures s.users[k].email != e
    {
    }
  }

  /** Storing a record whose email no other account holds keeps emails unique. */
  lemma ReplaceKeepsEmailsUnique(users: map<Id, User>, id: Id, u: User)
    requires !EmailTaken(users - {id}, u.email)
    ensures UniqueEmails(users) ==> UniqueEmails(users[id := u])
  {
    assert forall k :: k in users - {id} ==> users[k].email != u.email;
    assert forall k :: k in users && k != id ==> k in users - {id};
  }

  /** DELETE /users/:id: the delete's error is ignored, so a failing delete
      still answers 200 and the account stays. */
  function Delete(s: Store, id: Id, removeFails: bool): (r: Answer<()>)
    ensures r.reply.Done? <==> id in s.users
    ensures r.reply.Fail? ==> r.reply.status == NotFound && r.store == s
    ensures r.reply.Done? && !removeFails ==> r.store == s.(users := s.users - {id})
    ensures removeFails ==> r.store == s
  {
    if id !in s.users then Answer(Fail(NotFound, "User not found", ""), s)
    else if removeFails then Answer(Done(Ok, ()), s)
    else Answer(Done(Ok, ()), s.(users := s.users - {id}))
  }

  /** A user created here has an empty password hash, and neither a create
      nor the intended update ever changes a stored hash. */
  lemma HashNeverSetHere(s: Store, body: Option<UserBody>, insertFails: bool, id: Id, patch: Option<UserBody>, saveFails: bool)
    ensures var c := Create(s, body, insertFails);
            && (forall k :: k in c.store.users && k !in s.users ==> c.store.users[k].passwordHash == "")
            && (forall k :: k in s.users ==> k in c.store.users && c.store.users[k] == s.users[k])
    ensures var u := Update(s, id, patch, saveFails);
            forall k :: k in s.users ==> u.store.users[k].passwordHash == s.users[k].passwordHash
  {
  }

  /** Updating with a body that names no field changes nothing and echoes
      the stored record. */
  lemma EmptyPatchIsIdentity(s: Store, id: Id, saveFails: bool)
    requires id in s.users
    ensures var r := Update(s, id, Some(UserBody(None, None, None, None)), saveFails);
            r.reply == Done(Ok, (id, s.users[id])) && r.store == s
  {
    var r := Update(s, id, Some(UserBody(None, None, None, None)), saveFails);
    if !saveFails && !EmailTaken(s.users - {id}, s.users[id].email) {
      assert s.users[id := s.users[id]] == s.users;
    }
  }

  /** A created account can be read back, unless the insert was refused. */
  lemma CreateThenGet(s: Store, body: UserBody, insertFails: bool)
    requires !insertFails && body.id.GetOr(0) !in s.users && !EmailTaken(s.users, body.email.GetOr(""))
    ensures var c := Create(s, Some(body), insertFails);
            GetByID(c.store, c.reply.data.0).reply == Done(Ok, c.reply.data.1)
  {
  }

  /** A created account is listed by GET /users, one more than before; a
      refused one leaves the list as it was. */
  lemma CreateThenGetAll(s: Store, body: UserBody, insertFails: bool)
    ensures var c := Create(s, Some(body), insertFails);
            var listed := GetAll(c.store, false).reply.data;
            && (c.store != s ==> c.reply.data.0 in listed && listed[c.reply.data.0] == c.reply.data.1 && |listed| == |s.users| + 1)
            && (c.store == s ==> listed == s.users)
  {
    var c := Create(s, Some(body), insertFails);
    if c.store != s {
      assert c.store.users.Keys == s.users.Keys + {c.reply.data.0};
    }
  }

  /** Deleting an account makes it unreadable. */
  lemma DeleteThenGet(s: Store, id: Id)
    ensures GetByID(Delete(s, id, false).store, id).reply.status == NotFound
  {
  }
}
